=== FILE: README.md ===
# Yoga class attendance: ticket and pass reconciliation

This project models the reconciliation engine of a yoga-class attendance tool, in Dafny.
The tool records who attended which class. It also charges each attendance to one of the
participant's purchased orders: a single-class ticket, a membership, or a ten-class pass.
For ten-class passes it tracks whether the paper pass was ticked at each class.

The model covers five parts:

- **Chronology** (`Chronology`, `Text`).
  - A class id `YYYYMMDDHHmm` is read as five integer fields.
  - Class ids are ordered by the instant they denote.
  - The id `createClass` builds from a time `"YYYY-MM-DD HH:mm"` decodes back to that time's fields.
- **Orders** (`Orders`).
  - An order keeps a ledger of `(class, ticked)` entries.
  - The ledger is always sorted. A subset type enforces this.
  - The ten-class-pass status is derived from the ledger (`NotApplicable`, `InUse`, `AllTicked`, `MissingTicks`).
  - The model also covers the count of trailing unticked entries and the "is older" relation between orders.
- **Users** (`Users`, `Invariants`).
  - Ticket selection.
  - Attending and un-attending a class, including retroactive settling of older passes.
  - Toggling the "pass missing" flag, and the total of missing ticks.
  - `Invariants` proves what these operations preserve, and how they compose.
- **Classes** (`Classes`).
  - The participant-list updates.
  - The notes guard and the notes merge.
  - The class document that `createClass` writes.
- **Ingestion and constants** (`Ingestion`, `Global`).
  - How a shop sale becomes an order document and is linked to its customer.
  - How a sale of several items is split.
  - The academic-year label.
  - The product constants, and the status codec to and from the stored strings.

Every operation is a pure function over immutable records. An operation that the TypeScript code writes as a mutation returns the updated aggregate. An operation that can throw returns a `Result` whose error is `NoCurrentTicket` or `NoEntryForClass`.

Modelling choices:

- **Class ids.**
  - A `Class` carries its id already decoded as a `ClassId`. `Chronology.ParseClassId` decodes the 12-digit text form field by field, and `Chronology.ParseClassIdInjective` proves that decoding injective on 12-digit strings, so a decoded id stands for exactly one id string.
  - `Compare` measures instants on a calendar of twelve 31-day months, with the month made 0-based as `compare` does. For well-formed ids its sign is the lexicographic order of the fields (`Chronology.CompareIsLexicographic`). JavaScript `Date` gives the same order only on real calendar dates with a year of at least 100 and away from daylight-saving changes; see "Left out".
- **Ticket selection.** `getCurrentTicket` returns an order object. `Users.Select` returns that order's position instead.
  - The two stable sorts followed by `[0]` are computed as one scan, `BestCandidate`.
  - The scan is characterised by the preference `NoWorse`: more uses first, then ten-class passes, then list order.
- **Arithmetic.** JavaScript `%` truncates toward zero, so it is modelled explicitly (`Text.JsRem`). Template-literal printing of numbers is `Text.NatToString` / `Text.IntToString`.
- **Un-attending.** Un-attending removes *every* ledger entry for the class, as the code's `filter` does (firestore/users.ts:189).
- **Academic-year month.** `MonthNewAcademicYear` is 8. The source compares it with `Date.getMonth()`, which is 0-based, so the academic year turns in September, although the comment next to the constant says August.

## Model

| member | source | states |
|---|---|---|
| Global.StatusToString | src/global.tsx:43-54 | every status is stored as one of the four names `notApplicable`, `allTicked`, `missingTicks`, `inUse` |
| Global.StatusFromString | src/global.tsx:30-41 | decoding yields AllTicked / MissingTicks / InUse exactly for their own name; any other string decodes to NotApplicable |
| Global.StatusRoundTrip | src/global.tsx:30-54 | decoding the encoding of a status gives it back; encoding the decoding of one of the four names gives the name back |
| Global.StatusToStringInjective | src/global.tsx:43-54 | distinct statuses get distinct names; there are exactly four names |
| Global.DefaultTicketsShape | src/global.tsx:15-19 | the default accepted tickets are three distinct types; the first is the ten-class pass, and no other one is |
| Text.NatToString | src/components/UpdateDatabase.tsx:156 | printing a natural number gives a non-empty digit string that `parseInt` reads back as the same number, with no leading zero: a string that starts with `0` is exactly `"0"` |
| Text.NatToStringInjective | src/components/UpdateDatabase.tsx:156 | different numbers print differently |
| Text.IntToString | src/components/UpdateDatabase.tsx:181-183 | printing an integer gives digits for non-negative values, a minus sign and the digits of the magnitude for negative ones; neither is zero-padded (a non-negative value printing with a leading `0` prints as `"0"`, and the digit after a minus sign is never `0`) |
| Text.JsRem | src/components/UpdateDatabase.tsx:181-183 | JavaScript `%` by a positive divisor: strictly inside (-b, b), with the sign of the dividend, and differing from it by a multiple of b |
| Text.DigitsValue | firestore/classes.ts:41-45 | `parseInt` of a digit string; it has no contract of its own: `Text.NatToString` reads back through it, and `Chronology.DigitsValueBound` and `Text.DigitsValueInjective` bound it and make it injective per length |
| Text.DigitsValueInjective | firestore/classes.ts:41-45 | two digit strings of one length that parse to the same number are the same string |
| Chronology.Compare | firestore/classes.ts:39-54 | the difference of the two ids' instants; it has no contract of its own: `Chronology.CompareIsLexicographic` and `Chronology.CompareIsOrder` state what its sign means |
| Chronology.CompareIsOrder | firestore/classes.ts:39-54 | compare(a,a) = 0, compare(a,b) = -compare(b,a), and the induced order is transitive |
| Chronology.CompareIsLexicographic | firestore/classes.ts:39-54 | for well-formed ids compare is negative iff c1 comes first in (year, month, day, hour, minute) order, positive iff c2 does, and zero iff the ids are equal |
| Chronology.ParseClassId | firestore/classes.ts:41-45 | an id is decoded exactly when it is 12 digits; year, month, day, hour and minute are the numbers read from substrings [0,4), [4,6), [6,8), [8,10), [10,12), each within its digit width |
| Chronology.ParseClassIdInjective | firestore/classes.ts:41-45 | two id strings that decode to the same fields are the same string |
| Chronology.Split | firestore/classes.ts:384 | `split(/[- :]/)` yields one more piece than the string has separators, no piece contains a separator, and gluing the pieces back with the string's separators gives the string |
| Chronology.ClassTimeId | firestore/classes.ts:384-387 | for a well-formed `YYYY-MM-DD HH:mm` the id is the time's twelve digits, in order, without the separators |
| Chronology.SplitClassTime | firestore/classes.ts:384 | splitting a well-formed `YYYY-MM-DD HH:mm` on `-`, space and `:` gives its five fields |
| Chronology.ClassTimeIdDecodes | firestore/classes.ts:384-387 | the id built from a well-formed time is the concatenation of its five fields, and decoding it gives those five numbers back |
| Orders.Insert | firestore/orders.ts:118-122 | inserting into a sorted ledger keeps it sorted and adds exactly the one entry |
| Orders.Sort | firestore/orders.ts:118-122 | the sorted ledger is a permutation of the input, sorted by compare, and an already sorted input is unchanged |
| Orders.MakeOrder | firestore/orders.ts:26-37 | the constructor keeps every field and stores a sorted permutation of the given entries |
| Orders.Clone | firestore/orders.ts:140-144 | a clone equals the original in every field, entries and status included |
| Orders.CalculateStatus | firestore/orders.ts:85-98 | not applicable unless both ids are the ten-class pass's; in use iff such a pass has fewer entries than allowed; otherwise settled iff the last entry is ticked |
| Orders.StatusReadsOnlyLastEntry | firestore/orders.ts:91-95 | two ledgers of equal length whose last entries agree on the tick give the same status, whatever the earlier ticks |
| Orders.TrailingUnticked | firestore/orders.ts:105-111 | the count is the length of the longest run of unticked entries at the end of the ledger |
| Orders.NumberMissingTicks | firestore/orders.ts:101-115 | the backward scan returns the trailing unticked run for InUse / MissingTicks and 0 otherwise; the result is at most the ledger length, and 0 when the last entry is ticked |
| Orders.TrailingUntickedUnique | firestore/orders.ts:105-111 | a maximal trailing run of unticked entries has the length the count gives |
| Orders.IsOlder | firestore/orders.ts:125-137 | an unused order is never older; otherwise for well-formed ids, older iff its last class lexicographically precedes the other's last class |
| Orders.IsOlderIsStrictOrder | firestore/orders.ts:125-137 | "is older" is irreflexive, asymmetric and transitive on used orders |
| Orders.RemoveClass | firestore/users.ts:189 | dropping a class keeps the ledger sorted, removes every use of that class and keeps the count of every other entry |
| Orders.FindEntry | firestore/users.ts:239 | finds the first entry of the class, or reports that the ledger has none |
| Orders.SetTicked | firestore/users.ts:241 | rewrites the tick of one entry and nothing else; the ledger stays sorted |
| Orders.ConsistentHasStatus | firestore/orders.ts:87-95 | a consistent order never makes status derivation read a missing last entry |
| Users.FindAlreadyUsed | firestore/users.ts:66-70 | the first accepted, exactly full order that already lists the class, or none if no such order exists |
| Users.BestCandidate | firestore/users.ts:72-96 | none iff no accepted order has room; otherwise an accepted order with room that is no worse than every other one (more uses, then ten-class pass, then list order) |
| Users.Select | firestore/users.ts:64-98 | re-selects the first full order already holding the class if any; otherwise returns the preferred order with room, or none iff no accepted order has room |
| Users.PreferenceIsUnique | firestore/users.ts:79-96 | two positions that are each no worse than the other are the same, so the selection is determined |
| Users.SelectHasRoom | firestore/users.ts:72-76 | when no order lists the class yet, the selected order has room, so selection never overbooks |
| Users.TotalMissingTicks | firestore/users.ts:101-107 | the loop returns the sum of the orders' missing ticks; 0 without orders, and never more than the total number of uses |
| Users.AddUse | firestore/users.ts:124-128 | the charged order gains exactly one ticked entry for the class, keeps its other fields, and gets its derived status |
| Users.AddUseLatest | firestore/users.ts:124-128 | a class no earlier than every recorded one is appended last, so a pass it fills becomes AllTicked |
| Users.Promote | firestore/users.ts:159-179 | another order changes only from MissingTicks to AllTicked, and does so exactly when it is older than the charged order |
| Users.CloneUser | firestore/users.ts:307-312 | the deep copy equals the user |
| Users.AttendedOrdersEffect | firestore/users.ts:118-179 | the attended orders show the whole attend effect: one new use on the charged order, no other ledger change, and only older MissingTicks orders settled |
| Users.Attend | firestore/users.ts:115-179 | fails with NoCurrentTicket iff selection finds nothing; otherwise the selected order gains one ticked use of the class and is re-derived, no other ledger changes, and exactly the older MissingTicks orders become AllTicked |
| Users.RemoveUse | firestore/users.ts:186-190 | every use of the class is dropped, every other entry kept, and the status re-derived |
| Users.Demote | firestore/users.ts:210-213 | an order changes iff it is AllTicked with an unticked last entry, and then becomes MissingTicks |
| Users.UnattendOrder | firestore/users.ts:186-213 | an order holding the class loses its uses of it; any other order is demoted; afterwards none holds the class |
| Users.Unattend | firestore/users.ts:181-227 | no order holds the class afterwards; holders keep every other entry and are re-derived; other orders keep their ledger, and change status iff AllTicked with an unticked last entry, to MissingTicks |
| Users.UpdateTicket | firestore/users.ts:114-230 | fails iff attending finds no ticket; on success the user's shape is kept; attending records the class on the selected order, un-attending leaves it on no order; the result is exactly attending's or un-attending's |
| Users.Propagate | firestore/users.ts:274-299 | only orders older than the charged one change: a present pass settles MissingTicks; a missing pass unsettles AllTicked when its last entry is unticked or is this class |
| Users.Retick | firestore/users.ts:239-246 | one entry gets the new tick, all other entries stay, and the status is re-derived |
| Users.RetickedOrdersEffect | firestore/users.ts:235-299 | the reticked orders show the whole toggle effect on the selected entry and on older orders |
| Users.MissingTick | firestore/users.ts:233-302 | NoCurrentTicket when selection finds nothing; NoEntryForClass iff the selected order lacks the class; succeeds iff a ticket is selected and it holds the class, and then that order's first entry for the class gets tick = not missing and the change propagates to older orders |
| Invariants.AttendKeepsConsistent | firestore/users.ts:115-179 | attending keeps every order consistent (a settled or unsettled status has a use; a pass has capacity) |
| Invariants.AttendEffectKeepsConsistent | firestore/users.ts:115-179 | any outcome with the attend effect keeps every order consistent |
| Invariants.UnattendKeepsConsistent | firestore/users.ts:183-226 | un-attending keeps every order consistent, so it can be repeated |
| Invariants.MissingTickKeepsConsistent | firestore/users.ts:233-302 | toggling the pass flag keeps every order consistent |
| Invariants.RetickEffectKeepsConsistent | firestore/users.ts:233-302 | any outcome with the toggle effect keeps every order consistent |
| Invariants.AttendNeverOverbooks | firestore/users.ts:118-128 | attending a class no order has paid for never makes an order hold more uses than it allows |
| Invariants.AttendEffectNeverOverbooks | firestore/users.ts:118-128 | charging an order with room keeps every order within its capacity |
| Invariants.UnattendNeverOverbooks | firestore/users.ts:183-226 | un-attending never overbooks an order |
| Invariants.MissingTickNeverOverbooks | firestore/users.ts:233-302 | toggling the pass flag never overbooks an order |
| Invariants.RetickEffectNeverOverbooks | firestore/users.ts:233-302 | any outcome with the toggle effect keeps every order within its capacity |
| Invariants.AttendThenSelectSame | firestore/users.ts:64-98 | after attending a class no order had paid for, selecting for that class again picks the order just charged |
| Invariants.EffectSelectsSame | firestore/users.ts:64-98 | re-selection after any outcome with the attend effect returns the charged order, whether it is now full or still has room |
| Invariants.AttendThenMissingTickSucceeds | firestore/users.ts:233-246 | after attending, toggling the pass flag for that class finds a ticket and an entry, so it does not fail |
| Invariants.UnattendUndoesAttend | firestore/users.ts:115-213 | un-attending right after attending gives every order back exactly the entries it had before |
| Invariants.EffectUndone | firestore/users.ts:186-190 | removing the class from an outcome with the attend effect restores every ledger as a multiset |
| Classes.WithAttendance | firestore/classes.ts:153-155 | participants with the id get the new user and attendance and keep their pass flag; others are unchanged |
| Classes.WithPassFlag | firestore/classes.ts:179-181 | participants with the id get the new user and pass flag and keep their attendance; others are unchanged |
| Classes.UpdateAttendedStatus | firestore/classes.ts:145-169 | no-op when attendance is unchanged; fails iff attending finds no ticket; otherwise only matching participants change, they record exactly the user `updateTicket` returned, and that user holds the class iff they now attend |
| Classes.UpdateHasClassPassStatus | firestore/classes.ts:172-194 | no-op when the flag is unchanged; fails iff the toggle fails; otherwise only matching participants change, keeping their attendance and recording exactly the user `updateMissingTickOnPass` returned |
| Classes.AttendedStatusSettles | firestore/classes.ts:147 | repeating an attendance update with the participant as it now stands changes nothing |
| Classes.HasClassPassStatusSettles | firestore/classes.ts:174 | repeating a pass-flag update with the participant as it now stands changes nothing |
| Classes.AddParticipant | firestore/classes.ts:197-223 | exactly one participant is appended, not attended and not missing a pass, and the existing ones are unchanged |
| Classes.UpdateNotesStatus | firestore/classes.ts:124-142 | the class gets the new notes and nothing else changes; equal notes return the class as it is |
| Classes.UpdateNotesIdempotent | firestore/classes.ts:124-142 | setting the same notes twice is the same as setting them once |
| Classes.MergeNotes | firestore/classes.ts:394-395 | with stored notes, the result is the stored notes, a line break and the new notes; with none (or empty), just the new notes |
| Classes.MergeNotesKeepsBoth | firestore/classes.ts:394-395 | both the stored and the new notes can be read back from a merge |
| Classes.CreateClassDoc | firestore/classes.ts:384-406 | the document under the built id gets the new tickets; an existing one keeps its time and merges the notes; a new one gets the given time and notes; other documents are unchanged |
| Classes.CreatedClassDecodes | firestore/classes.ts:384-404 | a class created from a well-formed time is stored under a key that decodes to that time's fields |
| Ingestion.NewOrder | src/components/UpdateDatabase.tsx:107-130 | a new order has no uses; ten uses and InUse for the pass's product id; no uses allowed for a membership; one use and NotApplicable otherwise |
| Ingestion.LoadOrder | firestore/orders.ts:77-79 | a stored order loads with the same fields and the decoded status |
| Ingestion.NewOrderIsConsistent | src/components/UpdateDatabase.tsx:107-122 | a freshly ingested order is consistent and not overbooked |
| Ingestion.NewOrderStatusAgrees | src/components/UpdateDatabase.tsx:114-117 | when both ten-class tests agree, the stored status equals the derived status |
| Ingestion.NewOrderStatusDisagrees | src/components/UpdateDatabase.tsx:114-117 | a sale with the pass's product id on another product line is stored InUse with ten uses, while the derived status is NotApplicable |
| Ingestion.AddCustomer | src/components/UpdateDatabase.tsx:39-90 | no login changes nothing; a known user gets the order appended unless already listed; a new user is created from the sale's customer (cid, names, email), is a member iff both membership ids match, and lists just this order; other users are unchanged |
| Ingestion.AddCustomerIdempotent | src/components/UpdateDatabase.tsx:63-69 | linking the same order twice is the same as linking it once |
| Ingestion.AddCustomerKeepsNoDuplicates | src/components/UpdateDatabase.tsx:63-69 | no user ever lists an order twice |
| Ingestion.AddSale | src/components/UpdateDatabase.tsx:93-142 | a known order number changes nothing; otherwise exactly the new order is added, the customer is linked as `addCustomerIfNotExists` does, other users are unchanged and no user loses a reference; a known user keeps every field but its order list, and the only reference gained is this sale's new order, by its customer |
| Ingestion.AddSaleKeepsInvariants | src/components/UpdateDatabase.tsx:93-142 | ingesting a sale keeps order lists duplicate-free and every listed order existing |
| Ingestion.ExpandSale | src/components/UpdateDatabase.tsx:149-166 | a sale of Q > 1 items becomes Q single-item sales numbered `<n>n1` … `<n>nQ`, other fields copied; other sales pass through |
| Ingestion.ExpandSaleDistinct | src/components/UpdateDatabase.tsx:152-158 | the split sales have pairwise distinct order numbers |
| Ingestion.AddSales | src/components/UpdateDatabase.tsx:93-162 | after adding sales in order: every order number is stored; stored orders are untouched; a new number holds the order built from its first sale and is linked to that sale's customer; no user loses a reference; a user no sale links to is unchanged; a known user keeps every field but its order list; every new user and every new reference comes from a sale whose number was new at that point, linking that sale's customer to that sale's number |
| Ingestion.AddPurchase | src/components/UpdateDatabase.tsx:93-168 | after a purchase: every split order number is stored; stored orders are untouched; each split sale whose number was new holds the order built from it and is linked to the customer; no user loses a reference; every other user is unchanged; a known user keeps every field but its order list; the only user created and the only references gained are the customer's, to new split order numbers; a sale of at most one item is ingested exactly as `addSaleIfNotExists` would |
| Ingestion.PurchaseSingle | src/components/UpdateDatabase.tsx:149-166 | a sale of at most one item is not split: adding it as a purchase equals adding it as a sale |
| Ingestion.AddSalesKnown | src/components/UpdateDatabase.tsx:100-101 | sales whose order numbers are all stored change nothing |
| Ingestion.AddPurchaseIdempotent | src/components/UpdateDatabase.tsx:93-168 | ingesting the same purchase twice is the same as ingesting it once |
| Ingestion.AddSalesKeepInvariants | src/components/UpdateDatabase.tsx:93-168 | any run of sales keeps order lists duplicate-free and every listed order existing |
| Ingestion.AcademicYear | src/components/UpdateDatabase.tsx:176-184 | for years of the common era the label is two unpadded numbers of one or two digits around its only dash, reading back as the start year and the next year modulo 100 |
| Ingestion.AcademicYearContinuity | src/components/UpdateDatabase.tsx:180-184 | the months from September of one year to August of the next share one label |
| Ingestion.AcademicYearConsecutive | src/components/UpdateDatabase.tsx:180-184 | for positive years the second number follows the first modulo 100 |
| Ingestion.AcademicYearExamples | src/components/UpdateDatabase.tsx:180-184 | 2025 after the turn gives "25-26"; 2009 before it gives "8-9", with no zero padding |

## Left out

- Persistence is not modelled: `updateDoc`, `arrayUnion`, `arrayRemove`, `setDoc`, `writeBatch`, and every `fromSnapshot` loader. This includes the store-side quirk of removing an entry by value with `ticked: true`. Only the in-memory effects are modelled, and `Ingestion` models the store as two maps.
- Concurrency, races on one order, and partial-write failures are not modelled: every operation is atomic.
- `Orders.Sort`: does not state stability. The insertion it uses keeps equal entries in input order, but no lemma states it.
- Real `Date` semantics inside `compare` are left out. `Chronology.Compare` uses a uniform calendar whose sign is the lexicographic order of the fields. `Date` differs on three kinds of well-formed id: a day past the end of its month rolls into the next month (202502300900 falls after 202503010900); years 0 to 99 are read as 1900 to 1999; and a local time skipped by a daylight-saving change is read as the time one hour later, so it compares equal to that later time and after real times less than an hour later. Ids that are not 12 digits (NaN fields in `compare`) have no decoding.
- In `updateTicket`, `getGeneralClassInformation` can return null for the attended class. The class is assumed to exist.
- `updateTicket` can fail for persistence reasons. Persistence failures are not modelled, so no such error exists.
- `Classes.UpdateAttendedStatus`: `updateAttendedStatus` throws when the updated user is null. That null comes only from `updateTicket`'s early return when the class cannot be found (firestore/users.ts:123); the class is assumed to exist, so the case does not arise. A missing ticket is the separate `NoCurrentTicket` failure.
- The participant list is sorted by surname with `localeCompare` on load. This is left out: it is locale-dependent collation in a loader.
- The display formatting of class times with moment is left out.
- The week-window queries `getThisWeekClasses`, `getPastClasses` and `getFutureClasses` are left out: they depend on the wall clock.
- Step 2 of `createClass` (reading the participant CSV and creating missing users) is left out: it is CSV parsing and I/O.
- `Ingestion.AddSales`: the fields of a user created during a run (rather than by a single `Ingestion.AddSale`, where `Ingestion.AddCustomer` states them) are not restated; the run only promises that such a user is the customer of a sale that was new at that point.
- `Ingestion.AcademicYear`: the current date is a parameter; the clock read is left out. For years before 1 the label (with negative remainders) is computed but no property is stated about it.
- Network polling and sale-date filtering in `handleUpdate` are left out.
- Sale fields the rules never read (dates, price, VAT, quantity collected) are left out.
- The Express proxy, the Firebase configuration, `lastUpdated` bookkeeping and the UI pages and components are left out.
- `Users.Unattend` requires every order to be `Consistent`. That is stronger than what `updateTicket` needs to avoid a crash, which is only that an AllTicked order it demotes has a last entry (firestore/users.ts:210). An empty MissingTicks order, or a pass with capacity below 1 that does not hold the class, would be left untouched by the TypeScript code but is outside the model's precondition. `Consistent` is used because ingestion establishes it (`Ingestion.NewOrderIsConsistent`) and every operation keeps it (`Invariants.AttendKeepsConsistent`, `Invariants.UnattendKeepsConsistent`, `Invariants.MissingTickKeepsConsistent`), so no reachable order violates it. `Users.UpdateTicket` and `Classes.UpdateAttendedStatus` inherit this precondition when un-attending.
- `Orders.CalculateStatus` requires `StatusDefined`: `calculateStatusClassPass` would read `classes[-1]` for a full pass with no entries.

=== FILE: Chronology.dfy ===
/** Class identifiers and their chronological order (firestore/classes.ts,
    `GeneralClass.compare` and the id built by `createClass`). */
module Chronology {
  import opened Wrappers
  import opened Text

  /** A class id `YYYYMMDDHHmm` read as its five fixed-width fields; `month` is
      1-based as written in the id. */
  datatype ClassId = ClassId(year: int, month: int, day: int, hour: int, minute: int)

  /** The fields of a 12-digit id that denotes a real calendar slot. */
  predicate WellFormed(c: ClassId) {
    && 0 <= c.year <= 9999
    && 1 <= c.month <= 12
    && 1 <= c.day <= 31
    && 0 <= c.hour <= 23
    && 0 <= c.minute <= 59
  }

  /** Reference order on ids: lexicographic on (year, month, day, hour, minute). */
  predicate LexLess(a: ClassId, b: ClassId) {
    || a.year < b.year
    || (a.year == b.year && a.month < b.month)
    || (a.year == b.year && a.month == b.month && a.day < b.day)
    || (a.year == b.year && a.month == b.month && a.day == b.day && a.hour < b.hour)
    || (a.year == b.year && a.month == b.month && a.day == b.day && a.hour == b.hour && a.minute < b.minute)
  }

  // Mixed-radix prefixes of the instant: months, days, hours and minutes since year 0.
  function Months(c: ClassId): int { c.year * 12 + (c.month - 1) }
  function Days(c: ClassId): int { Months(c) * 31 + (c.day - 1) }
  function Hours(c: ClassId): int { Days(c) * 24 + c.hour }

  /** The instant an id denotes, in minutes, on a calendar of twelve 31-day months.
      The month is shifted to 0-based before use, as `compare` does before building a `Date`. */
  function Instant(c: ClassId): int {
    Hours(c) * 60 + c.minute
  }

  /** `GeneralClass.compare`: the difference of the two instants, so positive when `c1`
      is later than `c2`. */
  function Compare(c1: ClassId, c2: ClassId): int {
    Instant(c1) - Instant(c2)
  }

  /** For well-formed ids the sign of `Compare` is the lexicographic order of the fields:
      negative when `c1` comes first, positive when `c2` does, zero only for equal ids. */
  lemma CompareIsLexicographic(c1: ClassId, c2: ClassId)
    requires WellFormed(c1) && WellFormed(c2)
    ensures Compare(c1, c2) < 0 <==> LexLess(c1, c2)
    ensures Compare(c1, c2) > 0 <==> LexLess(c2, c1)
    ensures Compare(c1, c2) == 0 <==> c1 == c2
  {
    InstantDigits(c1, c2);
    InstantDigits(c2, c1);
  }

  /** `Compare` is a signed comparison: reflexive zero, antisymmetric sign, transitive. */
  lemma CompareIsOrder(a: ClassId, b: ClassId, c: ClassId)
    ensures Compare(a, a) == 0
    ensures Compare(a, b) == -Compare(b, a)
    ensures Compare(a, b) <= 0 && Compare(b, c) <= 0 ==> Compare(a, c) <= 0
    ensures Compare(a, b) < 0 && Compare(b, c) <= 0 ==> Compare(a, c) < 0
  {
  }

  /** Comparing `a * B + x` with `a' * B + x'` for digits `x`, `x'` below the radix `B`. */
  lemma Radix(a: int, x: int, a': int, x': int, B: int)
    requires B > 0 && 0 <= x < B && 0 <= x' < B
    ensures a * B + x < a' * B + x' <==> a < a' || (a == a' && x < x')
    ensures a * B + x == a' * B + x' <==> a == a' && x == x'
  {
    assert a' * B - a * B == (a' - a) * B;
    MulBounds(a' - a, B);
  }

  lemma InstantDigits(c1: ClassId, c2: ClassId)
    requires WellFormed(c1) && WellFormed(c2)
    ensures Instant(c1) < Instant(c2) <==> LexLess(c1, c2)
    ensures Instant(c1) == Instant(c2) <==> c1 == c2
  {
    Radix(c1.year, c1.month - 1, c2.year, c2.month - 1, 12);
    Radix(Months(c1), c1.day - 1, Months(c2), c2.day - 1, 31);
    Radix(Days(c1), c1.hour, Days(c2), c2.hour, 24);
    Radix(Hours(c1), c1.minute, Hours(c2), c2.minute, 60);
  }

  // ---------------------------------------------------------------------------
  // Ids as text

  /** Decoding an id string: the fields are the substrings [0,4), [4,6), [6,8),
      [8,10) and [10,12), each read as a decimal number. Only 12-digit ids are
      modelled; anything else has no instant. */
  function ParseClassId(id: string): (r: Option<ClassId>)
    ensures r.Some? <==> |id| == 12 && AllDigits(id)
    ensures r.Some? ==>
      && r.value.year == DigitsValue(id[0..4]) && r.value.month == DigitsValue(id[4..6])
      && r.value.day == DigitsValue(id[6..8]) && r.value.hour == DigitsValue(id[8..10])
      && r.value.minute == DigitsValue(id[10..12])
    ensures r.Some? ==>
      && 0 <= r.value.year <= 9999 && 0 <= r.value.month <= 99
      && 0 <= r.value.day <= 99 && 0 <= r.value.hour <= 99 && 0 <= r.value.minute <= 99
  {
    if |id| == 12 && AllDigits(id) then
      DigitsValueBound(id[0..4]);
      DigitsValueBound(id[4..6]);
      DigitsValueBound(id[6..8]);
      DigitsValueBound(id[8..10]);
      DigitsValueBound(id[10..12]);
      Some(ClassId(DigitsValue(id[0..4]), DigitsValue(id[4..6]), DigitsValue(id[6..8]),
                   DigitsValue(id[8..10]), DigitsValue(id[10..12])))
    else None
  }

  /** Decoding is injective: two 12-digit ids with the same fields are the same string, so
      ordering decoded ids orders the id strings the store holds. */
  lemma ParseClassIdInjective(a: string, b: string)
    requires ParseClassId(a).Some? && ParseClassId(a) == ParseClassId(b)
    ensures a == b
  {
    DigitsValueInjective(a[0..4], b[0..4]);
    DigitsValueInjective(a[4..6], b[4..6]);
    DigitsValueInjective(a[6..8], b[6..8]);
    DigitsValueInjective(a[8..10], b[8..10]);
    DigitsValueInjective(a[10..12], b[10..12]);
    assert a == a[0..4] + a[4..6] + a[6..8] + a[8..10] + a[10..12];
    assert b == b[0..4] + b[4..6] + b[6..8] + b[8..10] + b[10..12];
  }

  function Pow10(n: nat): nat {
    if n == 0 then 1 else 10 * Pow10(n - 1)
  }

  lemma {:induction false} DigitsValueBound(s: string)
    requires AllDigits(s)
    ensures DigitsValue(s) < Pow10(|s|)
  {
    if |s| > 0 {
      DigitsValueBound(s[..|s| - 1]);
    }
  }

  /** The separators of the pattern `/[- :]/` that splits a class time. */
  predicate IsSeparator(ch: char) {
    ch == '-' || ch == ' ' || ch == ':'
  }

  predicate NoSeparator(s: string) {
    forall i :: 0 <= i < |s| ==> !IsSeparator(s[i])
  }

  /** The separator characters of `s`, in order. */
  function SeparatorsOf(s: string): seq<char> {
    if |s| == 0 then [] else (if IsSeparator(s[0]) then [s[0]] else []) + SeparatorsOf(s[1..])
  }

  /** The pieces put back together, each separator between its two pieces. */
  function Glue(parts: seq<string>, seps: seq<char>): string
    requires |parts| == |seps| + 1
    decreases |seps|
  {
    if |seps| == 0 then parts[0] else parts[0] + [seps[0]] + Glue(parts[1..], seps[1..])
  }

  /** `s.split(/[- :]/)`: the maximal separator-free pieces, empty pieces included. Gluing
      them back with the separators of `s` gives `s`, so the pieces are determined. */
  function Split(s: string): (parts: seq<string>)
    ensures |parts| == 1 + |SeparatorsOf(s)|
    ensures forall i :: 0 <= i < |parts| ==> NoSeparator(parts[i])
    ensures Glue(parts, SeparatorsOf(s)) == s
  {
    if |s| == 0 then [""]
    else
      var rest := Split(s[1..]);
      if IsSeparator(s[0]) then
        var parts := [""] + rest;
        var seps := SeparatorsOf(s);
        assert seps == [s[0]] + SeparatorsOf(s[1..]);
        assert parts[1..] == rest && seps[1..] == SeparatorsOf(s[1..]);
        assert parts[0] == "" && seps[0] == s[0];
        assert Glue(parts, seps) == parts[0] + [seps[0]] + Glue(parts[1..], seps[1..]);
        assert Glue(rest, SeparatorsOf(s[1..])) == s[1..];
        assert "" + [s[0]] + s[1..] == s;
        parts
      else
        var parts := [[s[0]] + rest[0]] + rest[1..];
        assert SeparatorsOf(s) == [] + SeparatorsOf(s[1..]) == SeparatorsOf(s[1..]);
        GlueFront(s[0], rest, SeparatorsOf(s[1..]));
        assert s == [s[0]] + s[1..];
        parts
  }

  /** Gluing is compatible with a character put in front of the first piece. */
  lemma GlueFront(ch: char, parts: seq<string>, seps: seq<char>)
    requires |parts| == |seps| + 1
    ensures Glue([[ch] + parts[0]] + parts[1..], seps) == [ch] + Glue(parts, seps)
  {
    var q := [[ch] + parts[0]] + parts[1..];
    if |seps| > 0 {
      assert q[1..] == parts[1..];
    }
  }

  /** A template literal prints a missing destructured part as "undefined". */
  function Part(parts: seq<string>, i: nat): string {
    if i < |parts| then parts[i] else "undefined"
  }

  /** The id `createClass` gives a class: the first five pieces of the time, concatenated. */
  function ClassTimeId(classTime: string): (id: string)
    ensures WellFormedClassTime(classTime) ==>
      id == classTime[0..4] + classTime[5..7] + classTime[8..10] + classTime[11..13] + classTime[14..16]
  {
    var parts := Split(classTime);
    assert WellFormedClassTime(classTime) ==>
      parts == [classTime[0..4], classTime[5..7], classTime[8..10], classTime[11..13], classTime[14..16]] by {
      if WellFormedClassTime(classTime) {
        SplitClassTime(classTime);
      }
    }
    Part(parts, 0) + Part(parts, 1) + Part(parts, 2) + Part(parts, 3) + Part(parts, 4)
  }

  /** A class time `YYYY-MM-DD HH:mm` made of digits and the expected separators. */
  predicate WellFormedClassTime(t: string) {
    && |t| == 16
    && AllDigits(t[0..4]) && AllDigits(t[5..7]) && AllDigits(t[8..10])
    && AllDigits(t[11..13]) && AllDigits(t[14..16])
    && t[4] == '-' && t[7] == '-' && t[10] == ' ' && t[13] == ':'
  }

  lemma {:induction false} SplitPiece(w: string, t: string)
    requires NoSeparator(w)
    ensures Split(w + t) == [w + Split(t)[0]] + Split(t)[1..]
  {
    if |w| > 0 {
      var s := w + t;
      assert s[0] == w[0] && !IsSeparator(s[0]);
      assert s[1..] == w[1..] + t;
      SplitPiece(w[1..], t);
      var rest := Split(s[1..]);
      assert rest == [w[1..] + Split(t)[0]] + Split(t)[1..];
      assert Split(s) == [[s[0]] + rest[0]] + rest[1..];
      assert [w[0]] + (w[1..] + Split(t)[0]) == w + Split(t)[0];
    } else {
      assert w + t == t;
      assert w + Split(t)[0] == Split(t)[0];
    }
  }

  lemma SplitSeparator(ch: char, t: string)
    requires IsSeparator(ch)
    ensures Split([ch] + t) == [""] + Split(t)
  {
    assert ([ch] + t)[1..] == t;
  }

  lemma DigitsHaveNoSeparator(s: string)
    requires AllDigits(s)
    ensures NoSeparator(s)
  {
  }

  /** Splitting a digit field followed by one separator and the rest. */
  lemma SplitField(w: string, ch: char, t: string)
    requires AllDigits(w) && IsSeparator(ch)
    ensures Split(w + [ch] + t) == [w] + Split(t)
  {
    DigitsHaveNoSeparator(w);
    assert w + [ch] + t == w + ([ch] + t);
    SplitPiece(w, [ch] + t);
    SplitSeparator(ch, t);
    assert w + "" == w;
  }

  lemma SplitClassTime(t: string)
    requires WellFormedClassTime(t)
    ensures Split(t) == [t[0..4], t[5..7], t[8..10], t[11..13], t[14..16]]
  {
    var y, mo, t3 := t[0..4], t[5..7], t[8..];
    SplitDayTime(t);
    var t2 := t[5..];
    assert t2 == mo + ['-'] + t3;
    SplitField(mo, '-', t3);
    assert t == y + ['-'] + t2;
    SplitField(y, '-', t2);
  }

  /** The day, hour and minute fields of a well-formed class time. */
  lemma SplitDayTime(t: string)
    requires WellFormedClassTime(t)
    ensures Split(t[8..]) == [t[8..10], t[11..13], t[14..16]]
  {
    var d, h, mi := t[8..10], t[11..13], t[14..16];
    DigitsHaveNoSeparator(mi);
    SplitPiece(mi, "");
    assert mi + "" == mi;
    assert Split(mi) == [mi];
    var t4 := t[11..];
    assert t4 == h + [':'] + mi;
    SplitField(h, ':', mi);
    assert t[8..] == d + [' '] + t4;
    SplitField(d, ' ', t4);
  }

  /** The id `createClass` builds from a well-formed class time is the twelve digits of
      the time, and `compare` decodes it back to the five fields written in the time. */
  lemma {:induction false} ClassTimeIdDecodes(t: string)
    requires WellFormedClassTime(t)
    ensures ClassTimeId(t) == t[0..4] + t[5..7] + t[8..10] + t[11..13] + t[14..16]
    ensures ParseClassId(ClassTimeId(t)) == Some(ClassId(
      DigitsValue(t[0..4]), DigitsValue(t[5..7]), DigitsValue(t[8..10]),
      DigitsValue(t[11..13]), DigitsValue(t[14..16])))
  {
    var y, mo, d, h, mi := t[0..4], t[5..7], t[8..10], t[11..13], t[14..16];
    var id := ClassTimeId(t);
    assert id == y + mo + d + h + mi;
    DigitsConcat(y, mo);
    DigitsConcat(y + mo, d);
    DigitsConcat(y + mo + d, h);
    DigitsConcat(y + mo + d + h, mi);
    FieldsOfId(y, mo, d, h, mi);
  }

  /** The five fields of an id are its fixed-width substrings. */
  lemma FieldsOfId(y: string, mo: string, d: string, h: string, mi: string)
    requires |y| == 4 && |mo| == 2 && |d| == 2 && |h| == 2 && |mi| == 2
    ensures var id := y + mo + d + h + mi;
      |id| == 12 && id[0..4] == y && id[4..6] == mo && id[6..8] == d && id[8..10] == h && id[10..12] == mi
  {
  }

  lemma DigitsConcat(a: string, b: string)
    requires AllDigits(a) && AllDigits(b)
    ensures AllDigits(a + b)
  {
    forall i | 0 <= i < |a + b|
      ensures IsDigit((a + b)[i])
    {
      if i >= |a| { assert (a + b)[i] == b[i - |a|]; }
    }
  }

}

=== FILE: Classes.dfy ===
/** A yoga class and its participant list (firestore/classes.ts, firestore/participants.ts):
    the pure part of toggling attendance and the pass flag, adding a participant, editing
    notes, and the class document written by `createClass`. */
module Classes {
  import opened Wrappers
  import opened Global
  import opened Chronology
  import opened Orders
  import opened Users
  import opened Text

  /** A user registered for a class; `missingClassPass` matters for ten-class passes. */
  datatype Participant = Participant(id: string, user: User, attended: bool, missingClassPass: bool)

  /** A class with its details. The id is kept decoded (see `Chronology.ParseClassId`),
      `time` is the display string. */
  datatype Class = Class(id: ClassId, time: string, participants: seq<Participant>,
                         validTickets: seq<TicketType>, notes: string)

  /** The parts of a class that participant updates never change. */
  predicate SameClassInfo(a: Class, b: Class) {
    b.id == a.id && b.time == a.time && b.validTickets == a.validTickets && b.notes == a.notes
  }

  // ---------------------------------------------------------------------------
  // Participant list updates

  /** Every participant with id `pid` gets the new user and attendance, and keeps its
      pass flag; the others are untouched. */
  function WithAttendance(ps: seq<Participant>, pid: string, user: User, attended: bool): (r: seq<Participant>)
    ensures |r| == |ps|
    ensures forall k :: 0 <= k < |ps| && ps[k].id == pid ==>
      r[k] == Participant(pid, user, attended, ps[k].missingClassPass)
    ensures forall k :: 0 <= k < |ps| && ps[k].id != pid ==> r[k] == ps[k]
  {
    seq(|ps|, k requires 0 <= k < |ps| =>
      if ps[k].id == pid then Participant(ps[k].id, user, attended, ps[k].missingClassPass) else ps[k])
  }

  /** Every participant with id `pid` gets the new user and pass flag, and keeps its
      attendance; the others are untouched. */
  function WithPassFlag(ps: seq<Participant>, pid: string, user: User, missing: bool): (r: seq<Participant>)
    ensures |r| == |ps|
    ensures forall k :: 0 <= k < |ps| && ps[k].id == pid ==>
      r[k] == Participant(pid, user, ps[k].attended, missing)
    ensures forall k :: 0 <= k < |ps| && ps[k].id != pid ==> r[k] == ps[k]
  {
    seq(|ps|, k requires 0 <= k < |ps| =>
      if ps[k].id == pid then Participant(ps[k].id, user, ps[k].attended, missing) else ps[k])
  }

  /** `updateAttendedStatus`: a no-op when the flag does not change; otherwise the
      participant's user is reconciled (`updateTicket`) and the matching participants
      record the new user and attendance. Fails exactly when attending finds no ticket. */
  function UpdateAttendedStatus(cl: Class, p: Participant, attended: bool): (r: Result<Class, Error>)
    requires p.attended && !attended ==> forall j :: 0 <= j < |p.user.orders| ==> Consistent(p.user.orders[j])
    ensures p.attended == attended ==> r == Success(cl)
    ensures r.Failure? <==> p.attended != attended && attended && Select(p.user.orders, cl.id, cl.validTickets).None?
    ensures r.Failure? ==> r.error == NoCurrentTicket
    ensures r.Success? ==> SameClassInfo(cl, r.value) && |r.value.participants| == |cl.participants|
    ensures r.Success? && p.attended != attended ==>
      forall k :: 0 <= k < |cl.participants| ==>
        var q, q' := cl.participants[k], r.value.participants[k];
        if q.id == p.id then
          && q'.id == q.id && q'.attended == attended && q'.missingClassPass == q.missingClassPass
          && SameShape(p.user, q'.user)
          // the new user has paid for the class exactly when the participant attends
          && (attended ==> exists j :: 0 <= j < |q'.user.orders| && HasClass(q'.user.orders[j], cl.id))
          && (!attended ==> forall j :: 0 <= j < |q'.user.orders| ==> !HasClass(q'.user.orders[j], cl.id))
        else q' == q
    // the participants record exactly the user `updateTicket` returned
    ensures r.Success? && p.attended != attended ==>
      && UpdateTicket(p.user, cl.id, cl.validTickets, attended).Success?
      && r.value == cl.(participants := WithAttendance(cl.participants, p.id,
                          UpdateTicket(p.user, cl.id, cl.validTickets, attended).value, attended))
  {
    if p.attended == attended then Success(cl)
    else
      match UpdateTicket(p.user, cl.id, cl.validTickets, attended)
      case Failure(e) => Failure(e)
      case Success(nu) =>
        AttendanceRecorded(cl, p, nu, attended);
        Success(cl.(participants := WithAttendance(cl.participants, p.id, nu, attended)))
  }

  /** The participants after recording `nu`, the user `updateTicket` returned. */
  lemma AttendanceRecorded(cl: Class, p: Participant, nu: User, attended: bool)
    requires p.attended != attended
    requires p.attended && !attended ==> forall j :: 0 <= j < |p.user.orders| ==> Consistent(p.user.orders[j])
    requires UpdateTicket(p.user, cl.id, cl.validTickets, attended) == Success(nu)
    ensures forall k :: 0 <= k < |cl.participants| ==>
      var q, q' := cl.participants[k], WithAttendance(cl.participants, p.id, nu, attended)[k];
      if q.id == p.id then
        && q'.id == q.id && q'.attended == attended && q'.missingClassPass == q.missingClassPass
        && SameShape(p.user, q'.user)
        && (attended ==> exists j :: 0 <= j < |q'.user.orders| && HasClass(q'.user.orders[j], cl.id))
        && (!attended ==> forall j :: 0 <= j < |q'.user.orders| ==> !HasClass(q'.user.orders[j], cl.id))
      else q' == q
  {
    if attended {
      var i := Select(p.user.orders, cl.id, cl.validTickets).value;
      assert HasClass(nu.orders[i], cl.id);
    }
  }

  /** `updateHasClassPassStatus`: a no-op when the flag does not change; otherwise the
      pass tick is toggled on the user (`updateMissingTickOnPass`) and the matching
      participants record the new user and flag, keeping their attendance. */
  function UpdateHasClassPassStatus(cl: Class, p: Participant, missing: bool): (r: Result<Class, Error>)
    ensures p.missingClassPass == missing ==> r == Success(cl)
    ensures p.missingClassPass != missing ==>
      (r.Failure? <==> MissingTick(p.user, cl.id, cl.validTickets, missing).Failure?)
    ensures r.Success? ==> SameClassInfo(cl, r.value) && |r.value.participants| == |cl.participants|
    ensures r.Success? && p.missingClassPass != missing ==>
      forall k :: 0 <= k < |cl.participants| ==>
        var q, q' := cl.participants[k], r.value.participants[k];
        if q.id == p.id then
          && q'.id == q.id && q'.attended == q.attended && q'.missingClassPass == missing
          && SameShape(p.user, q'.user)
        else q' == q
    // the participants record exactly the user `updateMissingTickOnPass` returned
    ensures r.Success? && p.missingClassPass != missing ==>
      && MissingTick(p.user, cl.id, cl.validTickets, missing).Success?
      && r.value == cl.(participants := WithPassFlag(cl.participants, p.id,
                          MissingTick(p.user, cl.id, cl.validTickets, missing).value, missing))
  {
    if p.missingClassPass == missing then Success(cl)
    else
      match MissingTick(p.user, cl.id, cl.validTickets, missing)
      case Failure(e) => Failure(e)
      case Success(nu) => Success(cl.(participants := WithPassFlag(cl.participants, p.id, nu, missing)))
  }

  /** Repeating an attendance update with the participant as it now stands changes nothing. */
  lemma AttendedStatusSettles(cl: Class, p: Participant, attended: bool)
    ensures UpdateAttendedStatus(cl, p.(attended := attended), attended) == Success(cl)
  {
  }

  /** Repeating a pass-flag update with the participant as it now stands changes nothing. */
  lemma HasClassPassStatusSettles(cl: Class, p: Participant, missing: bool)
    ensures UpdateHasClassPassStatus(cl, p.(missingClassPass := missing), missing) == Success(cl)
  {
  }

  /** `addParticipant`: the user joins at the end, neither attended nor missing a pass. */
  function AddParticipant(cl: Class, u: User): (r: Class)
    ensures SameClassInfo(cl, r)
    ensures |r.participants| == |cl.participants| + 1
    ensures r.participants[..|cl.participants|] == cl.participants
    ensures r.participants[|cl.participants|] == Participant(u.id, u, false, false)
  {
    cl.(participants := cl.participants + [Participant(u.id, u, false, false)])
  }

  // ---------------------------------------------------------------------------
  // Notes

  /** `updateNotesStatus`: the class gets the new notes; equal notes leave it as it is. */
  function UpdateNotesStatus(cl: Class, notes: string): (r: Class)
    ensures r.notes == notes
    ensures r.(notes := cl.notes) == cl
    ensures cl.notes == notes ==> r == cl
  {
    if cl.notes == notes then cl else cl.(notes := notes)
  }

  lemma UpdateNotesIdempotent(cl: Class, notes: string)
    ensures UpdateNotesStatus(UpdateNotesStatus(cl, notes), notes) == UpdateNotesStatus(cl, notes)
  {
  }

  /** The notes stored by `createClass` for an existing class: the stored notes (a missing
      field reads as empty), a line break and the new notes; just the new notes when
      nothing was stored. */
  function MergeNotes(existing: Option<string>, notes: string): (r: string)
    ensures existing.None? || existing.value == "" ==> r == notes
    ensures existing.Some? && existing.value != "" ==>
      && |r| == |existing.value| + 1 + |notes|
      && r[..|existing.value|] == existing.value
      && r[|existing.value|] == '\n'
      && r[|existing.value| + 1..] == notes
  {
    var stored := if existing.Some? then existing.value else "";
    if stored != "" then stored + "\n" + notes else notes
  }

  /** Merging never loses text: the stored notes and the new notes can be read back
      from the merge, separated by its first line break after the stored part. */
  lemma {:induction false} MergeNotesKeepsBoth(existing: string, notes: string)
    ensures existing != "" ==>
      var m := MergeNotes(Some(existing), notes);
      m[..|existing|] == existing && m[|existing| + 1..] == notes
    ensures existing == "" ==> MergeNotes(Some(existing), notes) == notes
  {
  }

  // ---------------------------------------------------------------------------
  // The class document written by `createClass` (participants from the CSV left out)

  datatype ClassDoc = ClassDoc(time: string, validTickets: seq<TicketType>, notes: Option<string>)

  /** Step 1 of `createClass`: the document keyed by the id built from `classTime`. An
      existing class keeps its time, gets the new ticket types and the merged notes; a
      new class is created with the given time, ticket types and notes. */
  function CreateClassDoc(docs: map<string, ClassDoc>, classTime: string, validTickets: seq<TicketType>, notes: string)
    : (r: map<string, ClassDoc>)
    ensures r.Keys == docs.Keys + {ClassTimeId(classTime)}
    ensures forall id :: id in docs && id != ClassTimeId(classTime) ==> r[id] == docs[id]
    ensures r[ClassTimeId(classTime)].validTickets == validTickets
    ensures ClassTimeId(classTime) in docs ==>
      && r[ClassTimeId(classTime)].time == docs[ClassTimeId(classTime)].time
      && r[ClassTimeId(classTime)].notes == Some(MergeNotes(docs[ClassTimeId(classTime)].notes, notes))
    ensures ClassTimeId(classTime) !in docs ==> r[ClassTimeId(classTime)] == ClassDoc(classTime, validTickets, Some(notes))
  {
    var id := ClassTimeId(classTime);
    if id in docs then
      docs[id := docs[id].(validTickets := validTickets, notes := Some(MergeNotes(docs[id].notes, notes)))]
    else
      docs[id := ClassDoc(classTime, validTickets, Some(notes))]
  }

  /** A class created from a well-formed "YYYY-MM-DD HH:mm" time is stored under a key
      that decodes to the five fields of that time, next to the time itself. */
  lemma {:induction false} CreatedClassDecodes(docs: map<string, ClassDoc>, classTime: string,
                                               validTickets: seq<TicketType>, notes: string)
    requires WellFormedClassTime(classTime) && ClassTimeId(classTime) !in docs
    ensures
      var r := CreateClassDoc(docs, classTime, validTickets, notes);
      exists id :: id in r && r[id].time == classTime
        && ParseClassId(id) == Some(ClassId(
             DigitsValue(classTime[0..4]), DigitsValue(classTime[5..7]), DigitsValue(classTime[8..10]),
             DigitsValue(classTime[11..13]), DigitsValue(classTime[14..16])))
  {
    var id := ClassTimeId(classTime);
    ClassTimeIdDecodes(classTime);
    assert id in CreateClassDoc(docs, classTime, validTickets, notes);
  }
}

=== FILE: Global.dfy ===
/** Product constants, ticket types and the class-pass status enumeration with its
    string codec (src/global.tsx). */
module Global {

  /** 0-based month (as returned by `Date.getMonth`) from which a new academic year is counted. */
  const MonthNewAcademicYear: int := 8

  const Id10ClassPass: int := 47764
  const LineId10ClassPass: int := 79740

  const IdSingleClassMember: int := 47776
  const LineIdSingleClassMember: int := 79759

  const IdSingleClassNonMember: int := 47777
  const LineIdSingleClassNonMember: int := 79760

  const IdMembership: int := 50311
  const LineIdMembership: int := 83799

  /** A purchasable ticket type: the upstream catalogue's product id and product-line id. */
  datatype TicketType = TicketType(productId: int, productLineId: int)

  const TenClassPass: TicketType := TicketType(Id10ClassPass, LineId10ClassPass)

  /** The ticket types a class accepts when none are given explicitly. */
  const DefaultTickets: seq<TicketType> := [
    TenClassPass,
    TicketType(IdSingleClassMember, LineIdSingleClassMember),
    TicketType(IdSingleClassNonMember, LineIdSingleClassNonMember)
  ]

  /** The one product that is tracked as a multi-use pass: both ids must match. */
  predicate IsTenClassPass(productId: int, productLineId: int) {
    productId == Id10ClassPass && productLineId == LineId10ClassPass
  }

  /** Derived status of a class pass. */
  datatype Status = NotApplicable | AllTicked | MissingTicks | InUse

  /** The four strings the store uses for the statuses. */
  const StatusNames: set<string> := {"notApplicable", "allTicked", "missingTicks", "inUse"}

  function StatusToString(s: Status): (r: string)
    ensures r in StatusNames
  {
    match s
    case NotApplicable => "notApplicable"
    case AllTicked => "allTicked"
    case MissingTicks => "missingTicks"
    case InUse => "inUse"
  }

  /** Decoding is total: every unknown string falls back to `NotApplicable`. */
  function StatusFromString(str: string): (r: Status)
    ensures r == AllTicked <==> str == "allTicked"
    ensures r == MissingTicks <==> str == "missingTicks"
    ensures r == InUse <==> str == "inUse"
    ensures r == NotApplicable <==> str !in {"allTicked", "missingTicks", "inUse"}
  {
    match str
    case "allTicked" => AllTicked
    case "missingTicks" => MissingTicks
    case "inUse" => InUse
    case _ => NotApplicable
  }

  /** Decoding inverts encoding, and encoding inverts decoding on the four canonical strings. */
  lemma StatusRoundTrip(s: Status, str: string)
    ensures StatusFromString(StatusToString(s)) == s
    ensures str in StatusNames ==> StatusToString(StatusFromString(str)) == str
  {
  }

  /** The encoding is injective: four statuses, four distinct strings. */
  lemma StatusToStringInjective(a: Status, b: Status)
    ensures StatusToString(a) == StatusToString(b) ==> a == b
    ensures |StatusNames| == 4
  {
    StatusRoundTrip(a, "");
    StatusRoundTrip(b, "");
  }

  /** The default accepted tickets: three distinct types, the ten-class pass first. */
  lemma DefaultTicketsShape()
    ensures |DefaultTickets| == 3
    ensures DefaultTickets[0] == TenClassPass
    ensures forall i, j :: 0 <= i < j < |DefaultTickets| ==> DefaultTickets[i] != DefaultTickets[j]
    ensures forall i :: 1 <= i < |DefaultTickets| ==>
      !IsTenClassPass(DefaultTickets[i].productId, DefaultTickets[i].productLineId)
  {
  }
}

=== FILE: Ingestion.dfy ===
/** Purchase ingestion (src/components/UpdateDatabase.tsx): how a sale from the upstream
    shop becomes an order document and is linked to its customer, how multi-quantity
    sales are split, and the academic-year label. Documents are kept in two maps keyed
    like the store's collections; a user's order references are order numbers. */
module Ingestion {
  import opened Wrappers
  import opened Global
  import opened Text
  import opened Orders

  datatype Customer = Customer(firstName: string, surname: string, cid: string, email: string,
                               login: Option<string>)

  /** The fields of a sale the rules read (dates, prices and VAT are not modelled). */
  datatype Sale = Sale(orderNumber: string, productId: int, productLineId: int, quantity: int,
                       customer: Customer)

  /** A stored order: the status is kept as its string name. */
  datatype OrderDoc = OrderDoc(numTotal: int, classes: seq<Entry>, productId: int, productLineId: int,
                               status: string)

  datatype UserDoc = UserDoc(cid: string, login: string, firstName: string, surname: string,
                             email: string, isMember: bool, orders: seq<string>)

  datatype Db = Db(orders: map<string, OrderDoc>, users: map<string, UserDoc>)

  // ---------------------------------------------------------------------------
  // Orders

  /** The order document created for a new sale: one use and no status by default; a
      ten-class pass product (recognised by its product id alone) gets ten uses and is
      in use; a membership gets no uses. */
  function NewOrder(sale: Sale): (r: OrderDoc)
    ensures r.classes == [] && r.productId == sale.productId && r.productLineId == sale.productLineId
    ensures sale.productId == Id10ClassPass ==> r.numTotal == 10 && r.status == StatusToString(InUse)
    ensures sale.productId == IdMembership ==> r.numTotal == 0 && r.status == StatusToString(NotApplicable)
    ensures sale.productId != Id10ClassPass && sale.productId != IdMembership ==>
      r.numTotal == 1 && r.status == StatusToString(NotApplicable)
  {
    var tenClass := sale.productId == Id10ClassPass;
    var numTotal := if sale.productId == IdMembership then 0 else if tenClass then 10 else 1;
    var status := if tenClass then InUse else NotApplicable;
    OrderDoc(numTotal, [], sale.productId, sale.productLineId, StatusToString(status))
  }

  /** The in-memory order read back from a stored document. */
  function LoadOrder(number: string, d: OrderDoc): (o: Order)
    ensures o.id == number && o.productId == d.productId && o.productLineId == d.productLineId
    ensures o.numTotal == d.numTotal && o.status == StatusFromString(d.status)
    ensures multiset(o.classes) == multiset(d.classes)
  {
    MakeOrder(number, d.productId, d.productLineId, d.numTotal, d.classes, StatusFromString(d.status))
  }

  /** A freshly ingested order satisfies the invariants the reconciliation relies on. */
  lemma NewOrderIsConsistent(number: string, sale: Sale)
    ensures Consistent(LoadOrder(number, NewOrder(sale)))
    ensures NotOverbooked(LoadOrder(number, NewOrder(sale)))
    ensures LoadOrder(number, NewOrder(sale)).classes == []
  {
    StatusRoundTrip(InUse, "");
    StatusRoundTrip(NotApplicable, "");
  }

  /** The stored status is the derived one whenever the two tests for a ten-class pass
      agree: both ids match, or the product id is not the pass's. */
  lemma NewOrderStatusAgrees(number: string, sale: Sale)
    requires IsTenClassPass(sale.productId, sale.productLineId) || sale.productId != Id10ClassPass
    ensures
      var o := LoadOrder(number, NewOrder(sale));
      StatusDefined(o) && o.status == CalculateStatus(o)
  {
    StatusRoundTrip(InUse, "");
    StatusRoundTrip(NotApplicable, "");
  }

  /** Ingestion and status derivation disagree on a product that has the pass's product id
      under another product line: it is stored in use, with ten uses, although the derived
      status is not applicable and selection never treats it as a ten-class pass. */
  lemma NewOrderStatusDisagrees(number: string, sale: Sale)
    requires sale.productId == Id10ClassPass && sale.productLineId != LineId10ClassPass
    ensures
      var o := LoadOrder(number, NewOrder(sale));
      o.status == InUse && o.numTotal == 10 && CalculateStatus(o) == NotApplicable
  {
    StatusRoundTrip(InUse, "");
  }

  // ---------------------------------------------------------------------------
  // Customers

  /** The login a sale links to, when it is present and non-empty. */
  predicate HasLogin(sale: Sale) {
    sale.customer.login.Some? && sale.customer.login.value != ""
  }

  /** Membership is granted only by the membership product on its own product line. */
  predicate IsMembershipSale(sale: Sale) {
    sale.productId == IdMembership && sale.productLineId == LineIdMembership
  }

  /** `addCustomerIfNotExists`: without a login nothing happens; a known user gets the
      order appended unless it already lists it; an unknown user is created with just
      this order. */
  function AddCustomer(db: Db, sale: Sale, number: string): (r: Db)
    ensures r.orders == db.orders
    ensures !HasLogin(sale) ==> r == db
    ensures HasLogin(sale) ==>
      var l := sale.customer.login.value;
      && r.users.Keys == db.users.Keys + {l}
      && (forall m :: m in db.users && m != l ==> r.users[m] == db.users[m])
      && number in r.users[l].orders
      && (l in db.users ==>
            && r.users[l].(orders := db.users[l].orders) == db.users[l]
            && (number in db.users[l].orders ==> r.users[l].orders == db.users[l].orders)
            && (number !in db.users[l].orders ==> r.users[l].orders == db.users[l].orders + [number]))
      && (l !in db.users ==>
            var c := sale.customer;
            r.users[l] == UserDoc(c.cid, l, c.firstName, c.surname, c.email, IsMembershipSale(sale), [number]))
  {
    if !HasLogin(sale) then db
    else
      var l := sale.customer.login.value;
      if l in db.users then
        var u := db.users[l];
        if number in u.orders then db
        else db.(users := db.users[l := u.(orders := u.orders + [number])])
      else
        var c := sale.customer;
        db.(users := db.users[l := UserDoc(c.cid, l, c.firstName, c.surname, c.email, IsMembershipSale(sale), [number])])
  }

  lemma AddCustomerIdempotent(db: Db, sale: Sale, number: string)
    ensures AddCustomer(AddCustomer(db, sale, number), sale, number) == AddCustomer(db, sale, number)
  {
  }

  predicate NoDuplicates(s: seq<string>) {
    forall i, j :: 0 <= i < j < |s| ==> s[i] != s[j]
  }

  /** No user lists an order twice. */
  predicate UsersHaveNoDuplicates(db: Db) {
    forall l :: l in db.users ==> NoDuplicates(db.users[l].orders)
  }

  /** Every order a user lists exists. */
  predicate RefsResolve(db: Db) {
    forall l :: l in db.users ==> forall k :: 0 <= k < |db.users[l].orders| ==> db.users[l].orders[k] in db.orders
  }

  lemma {:induction false} AddCustomerKeepsNoDuplicates(db: Db, sale: Sale, number: string)
    requires UsersHaveNoDuplicates(db)
    ensures UsersHaveNoDuplicates(AddCustomer(db, sale, number))
  {
    var r := AddCustomer(db, sale, number);
    forall l | l in r.users
      ensures NoDuplicates(r.users[l].orders)
    {
      if HasLogin(sale) && l == sale.customer.login.value && l in db.users && number !in db.users[l].orders {
        var s := db.users[l].orders;
        assert r.users[l].orders == s + [number];
        forall i, j | 0 <= i < j < |s| + 1
          ensures (s + [number])[i] != (s + [number])[j]
        {
          if j == |s| {
            assert s[i] in s;
          }
        }
      }
    }
  }

  // ---------------------------------------------------------------------------
  // Sales and purchases

  /** User `m` lists order `n`. */
  predicate Linked(db: Db, m: string, n: string) {
    m in db.users && n in db.users[m].orders
  }

  /** `v` is `u` with possibly other order references. */
  predicate SameProfile(u: UserDoc, v: UserDoc) {
    v.(orders := u.orders) == u
  }

  /** The user a sale links to is `m`. */
  predicate LinksTo(sale: Sale, m: string) {
    HasLogin(sale) && sale.customer.login.value == m
  }

  /** `addSaleIfNotExists`: a known order number changes nothing (the customer is not
      linked again); otherwise the order is created and then linked to its customer. */
  function AddSale(db: Db, sale: Sale): (r: Db)
    ensures sale.orderNumber in db.orders ==> r == db
    ensures sale.orderNumber !in db.orders ==>
      && r.orders.Keys == db.orders.Keys + {sale.orderNumber}
      && r.orders[sale.orderNumber] == NewOrder(sale)
      && (forall n :: n in db.orders ==> r.orders[n] == db.orders[n])
      && (!HasLogin(sale) ==> r.users == db.users)
      && (HasLogin(sale) ==>
            sale.customer.login.value in r.users && sale.orderNumber in r.users[sale.customer.login.value].orders)
    ensures sale.orderNumber !in db.orders ==> r.users == AddCustomer(db, sale, sale.orderNumber).users
    ensures r.users.Keys <= db.users.Keys + (if HasLogin(sale) then {sale.customer.login.value} else {})
    ensures db.orders.Keys <= r.orders.Keys && sale.orderNumber in r.orders
    // users other than the sale's customer are untouched
    ensures forall m :: m in db.users && !(HasLogin(sale) && m == sale.customer.login.value) ==>
      m in r.users && r.users[m] == db.users[m]
    // a user never loses an order reference, and gains only this sale's new order
    ensures forall m, n :: Linked(db, m, n) ==> Linked(r, m, n)
    ensures forall m, n :: Linked(r, m, n) ==>
      Linked(db, m, n) || (sale.orderNumber !in db.orders && LinksTo(sale, m) && n == sale.orderNumber)
    // a known user keeps every field but its order references
    ensures forall m :: m in db.users ==> m in r.users && SameProfile(db.users[m], r.users[m])
  {
    if sale.orderNumber in db.orders then db
    else AddCustomer(db.(orders := db.orders[sale.orderNumber := NewOrder(sale)]), sale, sale.orderNumber)
  }

  /** Ingesting a sale keeps users free of duplicate references, and keeps every
      reference pointing at an existing order. */
  lemma {:induction false} AddSaleKeepsInvariants(db: Db, sale: Sale)
    requires UsersHaveNoDuplicates(db) && RefsResolve(db)
    ensures UsersHaveNoDuplicates(AddSale(db, sale)) && RefsResolve(AddSale(db, sale))
  {
    if sale.orderNumber !in db.orders {
      var db' := db.(orders := db.orders[sale.orderNumber := NewOrder(sale)]);
      AddCustomerKeepsNoDuplicates(db', sale, sale.orderNumber);
      var r := AddSale(db, sale);
      forall l, k | l in r.users && 0 <= k < |r.users[l].orders|
        ensures r.users[l].orders[k] in r.orders
      {
        if !(HasLogin(sale) && l == sale.customer.login.value) {
          assert r.users[l] == db.users[l];
        } else if l in db.users && k < |db.users[l].orders| {
          assert r.users[l].orders[k] == db.users[l].orders[k];
        }
      }
    }
  }

  /** `addPurchaseIfNotExists` splits a sale of several items into single-item sales
      numbered `<number>n1` … `<number>nQ`; a sale of at most one item is kept. */
  function ExpandSale(sale: Sale): (r: seq<Sale>)
    ensures sale.quantity <= 1 ==> r == [sale]
    ensures sale.quantity > 1 ==>
      && |r| == sale.quantity
      && forall i :: 0 <= i < |r| ==>
           r[i] == sale.(orderNumber := sale.orderNumber + "n" + NatToString(i + 1), quantity := 1)
  {
    if sale.quantity > 1 then
      seq(sale.quantity, i requires 0 <= i => sale.(orderNumber := sale.orderNumber + "n" + NatToString(i + 1), quantity := 1))
    else [sale]
  }

  /** The split sales have pairwise distinct order numbers, so none of them is dropped as
      already known because of a sibling. */
  lemma {:induction false} ExpandSaleDistinct(sale: Sale)
    ensures forall i, j :: 0 <= i < j < |ExpandSale(sale)| ==>
      ExpandSale(sale)[i].orderNumber != ExpandSale(sale)[j].orderNumber
  {
    var r := ExpandSale(sale);
    forall i, j | 0 <= i < j < |r|
      ensures r[i].orderNumber != r[j].orderNumber
    {
      var p := sale.orderNumber + "n";
      assert r[i].orderNumber == p + NatToString(i + 1);
      assert r[j].orderNumber == p + NatToString(j + 1);
      assert (p + NatToString(i + 1))[|p|..] == NatToString(i + 1);
      assert (p + NatToString(j + 1))[|p|..] == NatToString(j + 1);
      NatToStringInjective(i + 1, j + 1);
    }
  }

  /** Sale `i` is the first of `sales` with its order number, and that number is not stored. */
  predicate FirstNew(db: Db, sales: seq<Sale>, i: nat)
    requires i < |sales|
  {
    && sales[i].orderNumber !in db.orders
    && forall j :: 0 <= j < i ==> sales[j].orderNumber != sales[i].orderNumber
  }

  /** Some sale that is new for `db` links user `m`. */
  predicate Creates(db: Db, sales: seq<Sale>, m: string) {
    exists i :: 0 <= i < |sales| && FirstNew(db, sales, i) && LinksTo(sales[i], m)
  }

  /** Some sale that is new for `db` links order `n` to user `m`. */
  predicate NewLink(db: Db, sales: seq<Sale>, m: string, n: string) {
    exists i :: 0 <= i < |sales| && FirstNew(db, sales, i) && LinksTo(sales[i], m) && sales[i].orderNumber == n
  }

  /** Adds sales one after the other, in order. */
  function AddSales(db: Db, sales: seq<Sale>): (r: Db)
    ensures forall i :: 0 <= i < |sales| ==> sales[i].orderNumber in r.orders
    // a stored order is never touched
    ensures forall n :: n in db.orders ==> n in r.orders && r.orders[n] == db.orders[n]
    // a new order number stores the order built from its first sale
    ensures forall i :: 0 <= i < |sales| && FirstNew(db, sales, i) ==>
      r.orders[sales[i].orderNumber] == NewOrder(sales[i])
    // ... and is linked to its customer
    ensures forall i :: 0 <= i < |sales| && FirstNew(db, sales, i) && HasLogin(sales[i]) ==>
      Linked(r, sales[i].customer.login.value, sales[i].orderNumber)
    // links are never dropped, and a user no sale links to is untouched
    ensures forall m, n :: Linked(db, m, n) ==> Linked(r, m, n)
    ensures forall m :: m in db.users && (forall i :: 0 <= i < |sales| ==> !LinksTo(sales[i], m)) ==>
      m in r.users && r.users[m] == db.users[m]
    // a known user keeps every field but its order references; new users and new
    // references come only from new sales
    ensures forall m :: m in db.users ==> m in r.users && SameProfile(db.users[m], r.users[m])
    ensures forall m :: m in r.users ==> m in db.users || Creates(db, sales, m)
    ensures forall m, n :: Linked(r, m, n) ==> Linked(db, m, n) || NewLink(db, sales, m, n)
    decreases |sales|
  {
    if |sales| == 0 then db
    else
      var db' := AddSale(db, sales[0]);
      var r := AddSales(db', sales[1..]);
      AddSalesStepOrders(db, sales, r);
      AddSalesStepLinks(db, sales, r);
      r
  }

  /** The inductive step of `AddSales` for stored orders and untouched users: what holds
      of the tail run from the database after the first sale holds of the whole run. */
  lemma {:induction false} AddSalesStepOrders(db: Db, sales: seq<Sale>, r: Db)
    requires |sales| > 0
    requires forall i :: 0 <= i < |sales[1..]| ==> sales[1..][i].orderNumber in r.orders
    requires forall n :: n in AddSale(db, sales[0]).orders ==> n in r.orders && r.orders[n] == AddSale(db, sales[0]).orders[n]
    requires forall i :: 0 <= i < |sales[1..]| && FirstNew(AddSale(db, sales[0]), sales[1..], i) ==>
      r.orders[sales[1..][i].orderNumber] == NewOrder(sales[1..][i])
    requires forall i :: 0 <= i < |sales[1..]| && FirstNew(AddSale(db, sales[0]), sales[1..], i) && HasLogin(sales[1..][i]) ==>
      Linked(r, sales[1..][i].customer.login.value, sales[1..][i].orderNumber)
    requires forall m, n :: Linked(AddSale(db, sales[0]), m, n) ==> Linked(r, m, n)
    requires forall m :: m in AddSale(db, sales[0]).users && (forall i :: 0 <= i < |sales[1..]| ==> !LinksTo(sales[1..][i], m)) ==>
      m in r.users && r.users[m] == AddSale(db, sales[0]).users[m]
    ensures forall i :: 0 <= i < |sales| ==> sales[i].orderNumber in r.orders
    ensures forall i :: 0 <= i < |sales| && FirstNew(db, sales, i) ==>
      r.orders[sales[i].orderNumber] == NewOrder(sales[i])
    ensures forall i :: 0 <= i < |sales| && FirstNew(db, sales, i) && HasLogin(sales[i]) ==>
      Linked(r, sales[i].customer.login.value, sales[i].orderNumber)
    ensures forall m :: m in db.users && (forall i :: 0 <= i < |sales| ==> !LinksTo(sales[i], m)) ==>
      m in r.users && r.users[m] == db.users[m]
  {
    var tail := sales[1..];
    forall i | 0 <= i < |sales| ensures sales[i].orderNumber in r.orders {
      if i > 0 { assert sales[i] == tail[i - 1]; }
    }
    FirstNewShift(db, sales);
    forall m | m in db.users && (forall i :: 0 <= i < |sales| ==> !LinksTo(sales[i], m))
      ensures m in r.users && r.users[m] == db.users[m]
    {
      assert !LinksTo(sales[0], m);
      forall i | 0 <= i < |tail| ensures !LinksTo(tail[i], m) {
        assert tail[i] == sales[i + 1];
      }
    }
  }

  /** The inductive step of `AddSales` for profiles and new references. */
  lemma {:induction false} AddSalesStepLinks(db: Db, sales: seq<Sale>, r: Db)
    requires |sales| > 0
    requires forall m :: m in AddSale(db, sales[0]).users ==>
      m in r.users && SameProfile(AddSale(db, sales[0]).users[m], r.users[m])
    requires forall m :: m in r.users ==> m in AddSale(db, sales[0]).users || Creates(AddSale(db, sales[0]), sales[1..], m)
    requires forall m, n :: Linked(r, m, n) ==>
      Linked(AddSale(db, sales[0]), m, n) || NewLink(AddSale(db, sales[0]), sales[1..], m, n)
    ensures forall m :: m in db.users ==> m in r.users && SameProfile(db.users[m], r.users[m])
    ensures forall m :: m in r.users ==> m in db.users || Creates(db, sales, m)
    ensures forall m, n :: Linked(r, m, n) ==> Linked(db, m, n) || NewLink(db, sales, m, n)
  {
    var db' := AddSale(db, sales[0]);
    var tail := sales[1..];
    forall i | 0 <= i < |tail| && FirstNew(db', tail, i)
      ensures FirstNew(db, sales, i + 1)
    {
      assert tail[i] == sales[i + 1];
      forall j | 0 <= j < i + 1
        ensures sales[j].orderNumber != sales[i + 1].orderNumber
      {
        if j > 0 { assert sales[j] == tail[j - 1]; }
      }
    }
    forall m | m in r.users
      ensures m in db.users || Creates(db, sales, m)
    {
      if m !in db.users {
        if m in db'.users {
          assert FirstNew(db, sales, 0) && LinksTo(sales[0], m);
        } else {
          var i :| 0 <= i < |tail| && FirstNew(db', tail, i) && LinksTo(tail[i], m);
          assert sales[i + 1] == tail[i];
        }
      }
    }
    forall m, n | Linked(r, m, n)
      ensures Linked(db, m, n) || NewLink(db, sales, m, n)
    {
      if !Linked(db, m, n) {
        if Linked(db', m, n) {
          assert FirstNew(db, sales, 0) && LinksTo(sales[0], m) && sales[0].orderNumber == n;
        } else {
          var i :| 0 <= i < |tail| && FirstNew(db', tail, i) && LinksTo(tail[i], m) && tail[i].orderNumber == n;
          assert sales[i + 1] == tail[i];
        }
      }
    }
  }

  /** A later sale that is new for `db` is new for the tail once the first sale is added. */
  lemma FirstNewShift(db: Db, sales: seq<Sale>)
    requires |sales| > 0
    ensures forall i :: 1 <= i < |sales| && FirstNew(db, sales, i) ==>
      FirstNew(AddSale(db, sales[0]), sales[1..], i - 1)
  {
    forall i | 1 <= i < |sales| && FirstNew(db, sales, i)
      ensures FirstNew(AddSale(db, sales[0]), sales[1..], i - 1)
    {
      assert sales[0].orderNumber != sales[i].orderNumber;
      forall j | 0 <= j < i - 1
        ensures sales[1..][j].orderNumber != sales[1..][i - 1].orderNumber
      {
        assert sales[1..][j] == sales[j + 1];
      }
    }
  }

  /** `addPurchaseIfNotExists`: every split order number is stored, stored orders are
      left alone, and each split sale whose number was not stored gets its new order. */
  function AddPurchase(db: Db, sale: Sale): (r: Db)
    ensures forall i :: 0 <= i < |ExpandSale(sale)| ==> ExpandSale(sale)[i].orderNumber in r.orders
    ensures forall n :: n in db.orders ==> n in r.orders && r.orders[n] == db.orders[n]
    ensures forall i :: 0 <= i < |ExpandSale(sale)| && ExpandSale(sale)[i].orderNumber !in db.orders ==>
      r.orders[ExpandSale(sale)[i].orderNumber] == NewOrder(ExpandSale(sale)[i])
    ensures forall i :: 0 <= i < |ExpandSale(sale)| && ExpandSale(sale)[i].orderNumber !in db.orders && HasLogin(sale) ==>
      Linked(r, sale.customer.login.value, ExpandSale(sale)[i].orderNumber)
    ensures forall m, n :: Linked(db, m, n) ==> Linked(r, m, n)
    ensures forall m :: m in db.users && !LinksTo(sale, m) ==> m in r.users && r.users[m] == db.users[m]
    // a known user keeps every field but its order references; the only new user and the
    // only new references are the sale's customer and its new split orders
    ensures forall m :: m in db.users ==> m in r.users && SameProfile(db.users[m], r.users[m])
    ensures forall m :: m in r.users ==> m in db.users || LinksTo(sale, m)
    ensures forall m, n :: Linked(r, m, n) ==>
      || Linked(db, m, n)
      || (LinksTo(sale, m) && n !in db.orders &&
          exists i :: 0 <= i < |ExpandSale(sale)| && ExpandSale(sale)[i].orderNumber == n)
    // a sale of at most one item is ingested as it is
    ensures sale.quantity <= 1 ==> r == AddSale(db, sale)
  {
    var sales := ExpandSale(sale);
    ExpandSaleDistinct(sale);
    assert forall i :: 0 <= i < |sales| && sales[i].orderNumber !in db.orders ==> FirstNew(db, sales, i);
    PurchaseLinks(db, sale);
    PurchaseSingle(db, sale);
    AddSales(db, sales)
  }

  /** A sale of at most one item is not split. */
  lemma {:induction false} PurchaseSingle(db: Db, sale: Sale)
    ensures sale.quantity <= 1 ==> AddSales(db, ExpandSale(sale)) == AddSale(db, sale)
  {
    if sale.quantity <= 1 {
      var sales := ExpandSale(sale);
      assert sales[1..] == [];
      assert AddSales(db, sales) == AddSales(AddSale(db, sale), []);
    }
  }

  /** The split sales all link to the purchase's customer, so every user and every
      reference they add belongs to that customer. */
  lemma {:induction false} PurchaseLinks(db: Db, sale: Sale)
    ensures forall m :: m in AddSales(db, ExpandSale(sale)).users ==> m in db.users || LinksTo(sale, m)
    ensures forall m, n :: Linked(AddSales(db, ExpandSale(sale)), m, n) ==>
      || Linked(db, m, n)
      || (LinksTo(sale, m) && n !in db.orders &&
          exists i :: 0 <= i < |ExpandSale(sale)| && ExpandSale(sale)[i].orderNumber == n)
  {
    var sales := ExpandSale(sale);
    var r := AddSales(db, sales);
    assert forall i :: 0 <= i < |sales| ==> sales[i].customer == sale.customer;
    forall m | m in r.users && m !in db.users
      ensures LinksTo(sale, m)
    {
      var i :| 0 <= i < |sales| && FirstNew(db, sales, i) && LinksTo(sales[i], m);
    }
    forall m, n | Linked(r, m, n) && !Linked(db, m, n)
      ensures LinksTo(sale, m) && n !in db.orders && exists i :: 0 <= i < |sales| && sales[i].orderNumber == n
    {
      var i :| 0 <= i < |sales| && FirstNew(db, sales, i) && LinksTo(sales[i], m) && sales[i].orderNumber == n;
    }
  }

  lemma {:induction false} AddSalesKnown(db: Db, sales: seq<Sale>)
    requires forall i :: 0 <= i < |sales| ==> sales[i].orderNumber in db.orders
    ensures AddSales(db, sales) == db
    decreases |sales|
  {
    if |sales| > 0 {
      assert AddSale(db, sales[0]) == db;
      AddSalesKnown(db, sales[1..]);
    }
  }

  /** Ingesting the same purchase twice has the effect of ingesting it once. */
  lemma AddPurchaseIdempotent(db: Db, sale: Sale)
    ensures AddPurchase(AddPurchase(db, sale), sale) == AddPurchase(db, sale)
  {
    AddSalesKnown(AddPurchase(db, sale), ExpandSale(sale));
  }

  lemma {:induction false} AddSalesKeepInvariants(db: Db, sales: seq<Sale>)
    requires UsersHaveNoDuplicates(db) && RefsResolve(db)
    ensures UsersHaveNoDuplicates(AddSales(db, sales)) && RefsResolve(AddSales(db, sales))
    decreases |sales|
  {
    if |sales| > 0 {
      AddSaleKeepsInvariants(db, sales[0]);
      AddSalesKeepInvariants(AddSale(db, sales[0]), sales[1..]);
    }
  }

  // ---------------------------------------------------------------------------
  // Academic year

  /** The calendar year in which the academic year of (`fullYear`, 0-based `month`) starts. */
  function AcademicYearStart(fullYear: int, month: int): int {
    if month < MonthNewAcademicYear then fullYear - 1 else fullYear
  }

  /** The position of the first dash in `r`, or `|r|` when there is none. */
  function DashIndex(r: string): (k: nat)
    ensures k <= |r| && (k < |r| ==> r[k] == '-')
    ensures forall j :: 0 <= j < k ==> r[j] != '-'
  {
    if |r| == 0 || r[0] == '-' then 0 else 1 + DashIndex(r[1..])
  }

  /** `r` is two unpadded numbers of one or two digits around its only dash, reading back
      as `x` and `y`. */
  predicate ReadsAs(r: string, x: nat, y: nat) {
    var k := DashIndex(r);
    && 1 <= k <= 2 && k + 1 < |r| <= k + 3
    && AllDigits(r[..k]) && DigitsValue(r[..k]) == x
    && AllDigits(r[k + 1..]) && DigitsValue(r[k + 1..]) == y
    // a part starts with '0' only when it is the single digit 0
    && (r[0] == '0' ==> k == 1) && (r[k + 1] == '0' ==> |r| == k + 2)
  }

  /** The label of the academic year containing the given month: the two years' last two
      digits (JavaScript `%`, printed without padding) joined by a dash. For years of the
      common era it reads back as the start year and the next year modulo 100. */
  function AcademicYear(fullYear: int, month: int): (r: string)
    ensures fullYear >= 1 ==>
      var s := AcademicYearStart(fullYear, month);
      ReadsAs(r, s % 100, (s + 1) % 100)
  {
    var s := AcademicYearStart(fullYear, month);
    LabelOfStart(s);
    Label(s)
  }

  lemma LabelOfStart(s: int)
    ensures s >= 0 ==> ReadsAs(Label(s), s % 100, (s + 1) % 100)
  {
    if s >= 0 {
      JsRemOfNat(s);
      JsRemOfNat(s + 1);
      assert Label(s) == NatToString(s % 100) + "-" + NatToString((s + 1) % 100);
      LabelReadsAs(s % 100, (s + 1) % 100);
    }
  }

  /** The template literal for an academic year starting in calendar year `s`. */
  function Label(s: int): string {
    IntToString(JsRem(s, 100)) + "-" + IntToString(JsRem(s + 1, 100))
  }

  /** On a non-negative dividend JavaScript `%` is the mathematical remainder. */
  lemma JsRemOfNat(a: int)
    requires a >= 0
    ensures JsRem(a, 100) == a % 100
  {
  }

  lemma LabelReadsAs(x: nat, y: nat)
    requires x < 100 && y < 100
    ensures ReadsAs(NatToString(x) + "-" + NatToString(y), x, y)
  {
    var a, b := NatToString(x), NatToString(y);
    DashSplit(a, b);
    NatLength(x);
    NatLength(y);
    Unpadded(x);
    Unpadded(y);
  }

  /** Joining a digit string and any text with a dash: the first dash is the joining one. */
  lemma DashSplit(a: string, b: string)
    requires AllDigits(a)
    ensures var r := a + "-" + b;
      && DashIndex(r) == |a| && r[..|a|] == a && r[|a| + 1..] == b
      && (|a| > 0 ==> r[0] == a[0]) && (|b| > 0 ==> r[|a| + 1] == b[0])
  {
    var r := a + "-" + b;
    assert r[|a|] == '-' && r[..|a|] == a && r[|a| + 1..] == b;
    assert forall j :: 0 <= j < |a| ==> r[j] == a[j] && IsDigit(a[j]);
  }

  /** Only zero prints with a leading '0', and it prints as that one digit. */
  lemma Unpadded(n: nat)
    ensures NatToString(n)[0] == '0' ==> |NatToString(n)| == 1
  {
  }

  /** A number below 100 prints in at most two digits. */
  lemma NatLength(n: nat)
    requires n < 100
    ensures |NatToString(n)| <= 2
  {
  }

  /** The label changes exactly at the start month: the months from September of one year
      to August of the next share one label. */
  lemma AcademicYearContinuity(year: int, m1: int, m2: int)
    requires MonthNewAcademicYear <= m1 <= 11 && 0 <= m2 < MonthNewAcademicYear
    ensures AcademicYear(year, m1) == AcademicYear(year + 1, m2)
  {
    assert AcademicYearStart(year, m1) == year == AcademicYearStart(year + 1, m2);
  }

  /** For years of the common era the second number follows the first modulo 100. */
  lemma {:induction false} AcademicYearConsecutive(fullYear: int, month: int)
    requires fullYear >= 1
    ensures
      var s := AcademicYearStart(fullYear, month);
      (JsRem(s, 100) + 1) % 100 == JsRem(s + 1, 100)
  {
    var s := AcademicYearStart(fullYear, month);
    JsRemOfNat(s);
    JsRemOfNat(s + 1);
  }

  /** Two labels: the usual one, and one whose years print with a single digit (the
      template literal does not pad). */
  lemma AcademicYearExamples()
    ensures AcademicYear(2025, 9) == "25-26"
    ensures AcademicYear(2009, 3) == "8-9"
  {
    assert JsRem(2025, 100) == 25 && JsRem(2026, 100) == 26;
    assert JsRem(2008, 100) == 8 && JsRem(2009, 100) == 9;
    assert DigitChar(2) == '2' && DigitChar(5) == '5' && DigitChar(6) == '6';
    assert DigitChar(8) == '8' && DigitChar(9) == '9';
    assert NatToString(25) == NatToString(2) + [DigitChar(5)];
    assert NatToString(26) == NatToString(2) + [DigitChar(6)];
  }
}

=== FILE: Invariants.dfy ===
/** Invariants of the reconciliation engine and how its operations compose
    (firestore/users.ts): consistency and no overbooking are preserved, and an
    attendance is found again by the pass-ticking toggle and undone by un-attending. */
module Invariants {
  import opened Wrappers
  import opened Global
  import opened Chronology
  import opened Orders
  import opened Users

  predicate AllConsistent(u: User) {
    forall j :: 0 <= j < |u.orders| ==> Consistent(u.orders[j])
  }

  predicate NoneOverbooked(u: User) {
    forall j :: 0 <= j < |u.orders| ==> NotOverbooked(u.orders[j])
  }

  /** No order of the user has paid for class `c` yet. */
  predicate NeverCharged(u: User, c: ClassId) {
    forall j :: 0 <= j < |u.orders| ==> !HasClass(u.orders[j], c)
  }

  // ---------------------------------------------------------------------------
  // Consistency: AllTicked / MissingTicks imply a use, ten-class passes have room

  lemma {:induction false} AttendKeepsConsistent(u: User, c: ClassId, valid: seq<TicketType>)
    requires AllConsistent(u)
    ensures Attend(u, c, valid).Success? ==> AllConsistent(Attend(u, c, valid).value)
  {
    var r := Attend(u, c, valid);
    if r.Success? {
      AttendEffectKeepsConsistent(u, r.value, Select(u.orders, c, valid).value, c);
    }
  }

  lemma {:induction false} AttendEffectKeepsConsistent(u: User, v: User, i: nat, c: ClassId)
    requires i < |u.orders| && AllConsistent(u) && AttendEffect(u, v, i, c)
    ensures AllConsistent(v)
  {
    forall j | 0 <= j < |v.orders|
      ensures Consistent(v.orders[j])
    {
      assert SameOrderShape(u.orders[j], v.orders[j]);
      assert Consistent(u.orders[j]);
      if j != i && v.orders[j].status != u.orders[j].status {
        assert u.orders[j].status == MissingTicks;
      }
    }
  }

  lemma {:induction false} UnattendKeepsConsistent(u: User, c: ClassId)
    requires AllConsistent(u)
    ensures AllConsistent(Unattend(u, c))
  {
    var v := Unattend(u, c);
    forall j | 0 <= j < |v.orders|
      ensures Consistent(v.orders[j])
    {
      assert SameOrderShape(u.orders[j], v.orders[j]);
      assert Consistent(u.orders[j]);
    }
  }

  lemma {:induction false} MissingTickKeepsConsistent(u: User, c: ClassId, valid: seq<TicketType>, missing: bool)
    requires AllConsistent(u)
    ensures MissingTick(u, c, valid, missing).Success? ==> AllConsistent(MissingTick(u, c, valid, missing).value)
  {
    var r := MissingTick(u, c, valid, missing);
    if r.Success? {
      var i := Select(u.orders, c, valid).value;
      RetickEffectKeepsConsistent(u, r.value, i, FindEntry(u.orders[i].classes, c).value, c, missing);
    }
  }

  lemma {:induction false} RetickEffectKeepsConsistent(u: User, v: User, i: nat, k: nat, c: ClassId, missing: bool)
    requires i < |u.orders| && k < |u.orders[i].classes|
    requires AllConsistent(u) && RetickEffect(u, v, i, k, c, missing)
    ensures AllConsistent(v)
  {
    forall j | 0 <= j < |v.orders|
      ensures Consistent(v.orders[j])
    {
      assert SameOrderShape(u.orders[j], v.orders[j]);
      assert Consistent(u.orders[j]);
    }
  }

  // ---------------------------------------------------------------------------
  // Invariant I3: no order pays for more classes than it allows

  /** Attending a class no order has paid for yet never overbooks an order. */
  lemma {:induction false} AttendNeverOverbooks(u: User, c: ClassId, valid: seq<TicketType>)
    requires NoneOverbooked(u) && NeverCharged(u, c)
    ensures Attend(u, c, valid).Success? ==> NoneOverbooked(Attend(u, c, valid).value)
  {
    var r := Attend(u, c, valid);
    if r.Success? {
      var i := Select(u.orders, c, valid).value;
      SelectHasRoom(u.orders, c, valid);
      AttendEffectNeverOverbooks(u, r.value, i, c);
    }
  }

  lemma {:induction false} AttendEffectNeverOverbooks(u: User, v: User, i: nat, c: ClassId)
    requires i < |u.orders| && NoneOverbooked(u) && AttendEffect(u, v, i, c)
    requires |u.orders[i].classes| < u.orders[i].numTotal
    ensures NoneOverbooked(v)
  {
    forall j | 0 <= j < |v.orders|
      ensures NotOverbooked(v.orders[j])
    {
      assert SameOrderShape(u.orders[j], v.orders[j]);
      assert NotOverbooked(u.orders[j]);
    }
  }

  lemma {:induction false} UnattendNeverOverbooks(u: User, c: ClassId)
    requires AllConsistent(u) && NoneOverbooked(u)
    ensures NoneOverbooked(Unattend(u, c))
  {
    var v := Unattend(u, c);
    forall j | 0 <= j < |v.orders|
      ensures NotOverbooked(v.orders[j])
    {
      assert SameOrderShape(u.orders[j], v.orders[j]);
      assert NotOverbooked(u.orders[j]);
      if HasClass(u.orders[j], c) {
        SubMultisetShorter(v.orders[j].classes, u.orders[j].classes);
      }
    }
  }

  /** A ledger whose entries all occur in another is no longer than it. */
  lemma SubMultisetShorter(a: seq<Entry>, b: seq<Entry>)
    requires multiset(a) <= multiset(b)
    ensures |a| <= |b|
  {
    var rest := multiset(b) - multiset(a);
    assert multiset(b) == multiset(a) + rest;
    assert |multiset(b)| == |multiset(a)| + |rest|;
    assert |multiset(a)| == |a| && |multiset(b)| == |b|;
  }

  lemma {:induction false} MissingTickNeverOverbooks(u: User, c: ClassId, valid: seq<TicketType>, missing: bool)
    requires NoneOverbooked(u)
    ensures MissingTick(u, c, valid, missing).Success? ==> NoneOverbooked(MissingTick(u, c, valid, missing).value)
  {
    var r := MissingTick(u, c, valid, missing);
    if r.Success? {
      var i := Select(u.orders, c, valid).value;
      RetickEffectNeverOverbooks(u, r.value, i, FindEntry(u.orders[i].classes, c).value, c, missing);
    }
  }

  lemma {:induction false} RetickEffectNeverOverbooks(u: User, v: User, i: nat, k: nat, c: ClassId, missing: bool)
    requires i < |u.orders| && k < |u.orders[i].classes|
    requires NoneOverbooked(u) && RetickEffect(u, v, i, k, c, missing)
    ensures NoneOverbooked(v)
  {
    forall j | 0 <= j < |v.orders|
      ensures NotOverbooked(v.orders[j])
    {
      assert SameOrderShape(u.orders[j], v.orders[j]);
      assert NotOverbooked(u.orders[j]);
    }
  }

  // ---------------------------------------------------------------------------
  // Composition

  /** Re-selection: after attending a class no order had paid for, selecting a ticket
      for the same class finds the order that was just charged (whether it is now full
      or still has room). This is what lets the pass-ticking toggle find its entry. */
  lemma {:induction false} AttendThenSelectSame(u: User, c: ClassId, valid: seq<TicketType>)
    requires NeverCharged(u, c)
    requires Attend(u, c, valid).Success?
    ensures Select(Attend(u, c, valid).value.orders, c, valid) == Select(u.orders, c, valid)
  {
    var i, v := Select(u.orders, c, valid).value, Attend(u, c, valid).value;
    assert AttendEffect(u, v, i, c);
    assert HasClass(v.orders[i], c) by {
      assert Entry(c, true) in multiset(v.orders[i].classes);
    }
    EffectSelectsSame(u, v, i, c, valid);
  }

  lemma {:induction false} EffectSelectsSame(u: User, v: User, i: nat, c: ClassId, valid: seq<TicketType>)
    requires NeverCharged(u, c)
    requires Select(u.orders, c, valid) == Some(i) && i < |u.orders|
    requires AttendEffect(u, v, i, c) && HasClass(v.orders[i], c)
    ensures Select(v.orders, c, valid) == Some(i)
  {
    assert forall j :: 0 <= j < |u.orders| ==> !AlreadyUsed(u.orders[j], c, valid);
    assert Candidate(u.orders[i], valid);
    assert SameOrderShape(u.orders[i], v.orders[i]);
    forall j | 0 <= j < |v.orders| && j != i
      ensures !HasClass(v.orders[j], c)
      ensures Candidate(v.orders[j], valid) ==> Candidate(u.orders[j], valid)
    {
      assert v.orders[j].classes == u.orders[j].classes;
      assert SameOrderShape(u.orders[j], v.orders[j]);
    }
    if |v.orders[i].classes| == v.orders[i].numTotal {
      assert AlreadyUsed(v.orders[i], c, valid);
    } else {
      assert forall j :: 0 <= j < |v.orders| ==> !AlreadyUsed(v.orders[j], c, valid);
      assert Candidate(v.orders[i], valid);
      forall j | 0 <= j < |v.orders| && Candidate(v.orders[j], valid)
        ensures NoWorse(v.orders, i, j)
      {
        if j != i {
          assert NoWorse(u.orders, i, j);
        }
      }
      var p := Select(v.orders, c, valid).value;
      PreferenceIsUnique(v.orders, valid, p, i);
    }
  }

  /** After attending a class no order had paid for, toggling the pass flag for that
      class succeeds: the selection finds the charged order and its entry. */
  lemma {:induction false} AttendThenMissingTickSucceeds(u: User, c: ClassId, valid: seq<TicketType>, missing: bool)
    requires NeverCharged(u, c)
    requires Attend(u, c, valid).Success?
    ensures MissingTick(Attend(u, c, valid).value, c, valid, missing).Success?
  {
    var i, v := Select(u.orders, c, valid).value, Attend(u, c, valid).value;
    AttendThenSelectSame(u, c, valid);
    assert AttendEffect(u, v, i, c);
    assert HasClass(v.orders[i], c) by {
      assert Entry(c, true) in multiset(v.orders[i].classes);
    }
  }

  /** Un-attending a class right after attending it gives every order back exactly the
      uses it had before (statuses may differ: the settling of older orders is a policy
      that un-attending only partly reverses). */
  lemma {:induction false} UnattendUndoesAttend(u: User, c: ClassId, valid: seq<TicketType>)
    requires AllConsistent(u) && NeverCharged(u, c)
    requires Attend(u, c, valid).Success?
    ensures AllConsistent(Attend(u, c, valid).value)
    ensures
      var w := Unattend(Attend(u, c, valid).value, c);
      |w.orders| == |u.orders|
      && forall j :: 0 <= j < |u.orders| ==> multiset(w.orders[j].classes) == multiset(u.orders[j].classes)
  {
    var i, v := Select(u.orders, c, valid).value, Attend(u, c, valid).value;
    AttendKeepsConsistent(u, c, valid);
    UnattendAfterEffect(u, v, i, c);
  }

  lemma {:induction false} UnattendAfterEffect(u: User, v: User, i: nat, c: ClassId)
    requires i < |u.orders| && NeverCharged(u, c) && AttendEffect(u, v, i, c) && AllConsistent(v)
    ensures
      var w := Unattend(v, c);
      |w.orders| == |u.orders|
      && forall j :: 0 <= j < |u.orders| ==> multiset(w.orders[j].classes) == multiset(u.orders[j].classes)
  {
    EffectUndone(u, v, Unattend(v, c), i, c);
  }

  lemma {:induction false} EffectUndone(u: User, v: User, w: User, i: nat, c: ClassId)
    requires i < |u.orders| && NeverCharged(u, c) && AttendEffect(u, v, i, c)
    requires SameShape(v, w)
    requires forall j :: 0 <= j < |w.orders| ==> !HasClass(w.orders[j], c)
    requires forall j :: 0 <= j < |v.orders| && HasClass(v.orders[j], c) ==>
      forall e: Entry :: e.cls != c ==> multiset(w.orders[j].classes)[e] == multiset(v.orders[j].classes)[e]
    requires forall j :: 0 <= j < |v.orders| && !HasClass(v.orders[j], c) ==> w.orders[j].classes == v.orders[j].classes
    ensures forall j :: 0 <= j < |u.orders| ==> multiset(w.orders[j].classes) == multiset(u.orders[j].classes)
  {
    forall j | 0 <= j < |u.orders|
      ensures multiset(w.orders[j].classes) == multiset(u.orders[j].classes)
    {
      if j == i {
        assert HasClass(v.orders[i], c) by {
          assert Entry(c, true) in multiset(v.orders[i].classes);
        }
        forall e: Entry
          ensures multiset(w.orders[i].classes)[e] == multiset(u.orders[i].classes)[e]
        {
          if e.cls == c {
            NoUseHasNoCount(w.orders[i], e);
            NoUseHasNoCount(u.orders[i], e);
          }
        }
      } else {
        assert v.orders[j].classes == u.orders[j].classes;
      }
    }
  }

  /** An order that never paid for class `e.cls` holds no copy of `e`. */
  lemma NoUseHasNoCount(o: Order, e: Entry)
    requires !HasClass(o, e.cls)
    ensures multiset(o.classes)[e] == 0
  {
  }
}

=== FILE: Orders.dfy ===
/** One purchased order (a single ticket or a ten-class pass) and its ledger of the
    classes it paid for (firestore/orders.ts). */
module Orders {
  import opened Wrappers
  import opened Global
  import opened Chronology

  /** One use of an order: the class it paid for and whether the paper/app pass was
      ticked at that class. */
  datatype Entry = Entry(cls: ClassId, ticked: bool)

  /** Entries ordered from earliest to latest class by `Compare`. */
  predicate Sorted(s: seq<Entry>) {
    forall i, j :: 0 <= i < j < |s| ==> Compare(s[i].cls, s[j].cls) <= 0
  }

  /** An order's ledger is sorted at all times: the constructor sorts it and every
      update re-establishes the order, so the invariant is carried by the type. */
  type Ledger = s: seq<Entry> | Sorted(s)

  datatype Order = Order(
    id: string,
    productId: int,
    productLineId: int,
    numTotal: int,        // how many classes the order may pay for
    classes: Ledger,
    status: Status)

  predicate IsTenClassPassOrder(o: Order) {
    IsTenClassPass(o.productId, o.productLineId)
  }

  /** The chronologically last use of an order. */
  function Last(o: Order): Entry
    requires |o.classes| > 0
  {
    o.classes[|o.classes| - 1]
  }

  predicate HasClass(o: Order, c: ClassId) {
    exists k :: 0 <= k < |o.classes| && o.classes[k].cls == c
  }

  // ---------------------------------------------------------------------------
  // Sorting (`sortClasses`, a stable sort by `Compare`)

  /** Inserts `e` before the first entry that is not earlier than it. */
  function Insert(e: Entry, s: Ledger): (r: Ledger)
    ensures multiset(r) == multiset(s) + multiset{e}
    ensures |r| == |s| + 1
  {
    if |s| == 0 || Compare(e.cls, s[0].cls) <= 0 then
      InsertFront(e, s);
      [e] + s
    else
      SortedTail(s);
      var t := Insert(e, s[1..]);
      InsertBehind(e, s, t);
      [s[0]] + t
  }

  lemma SortedTail(s: Ledger)
    requires |s| > 0
    ensures Sorted(s[1..])
  {
    forall i, j | 0 <= i < j < |s| - 1
      ensures Compare(s[1..][i].cls, s[1..][j].cls) <= 0
    {
      assert s[1..][i] == s[i + 1] && s[1..][j] == s[j + 1];
    }
  }

  /** A ledger stays sorted when an entry no later than all of its entries goes in front. */
  lemma SortedCons(x: Entry, t: Ledger)
    requires forall k :: 0 <= k < |t| ==> Compare(x.cls, t[k].cls) <= 0
    ensures Sorted([x] + t)
  {
    var s := [x] + t;
    forall i, j | 0 <= i < j < |s|
      ensures Compare(s[i].cls, s[j].cls) <= 0
    {
      assert s[j] == t[j - 1];
      if i > 0 {
        assert s[i] == t[i - 1];
      }
    }
  }

  lemma InsertFront(e: Entry, s: Ledger)
    requires |s| == 0 || Compare(e.cls, s[0].cls) <= 0
    ensures Sorted([e] + s)
  {
    forall k | 0 <= k < |s|
      ensures Compare(e.cls, s[k].cls) <= 0
    {
      if k > 0 {
        assert Compare(s[0].cls, s[k].cls) <= 0;
      }
    }
    SortedCons(e, s);
  }

  lemma InsertBehind(e: Entry, s: Ledger, t: Ledger)
    requires |s| > 0 && Compare(e.cls, s[0].cls) > 0
    requires multiset(t) == multiset(s[1..]) + multiset{e}
    ensures Sorted([s[0]] + t)
    ensures multiset([s[0]] + t) == multiset(s) + multiset{e}
  {
    assert s == [s[0]] + s[1..];
    forall k | 0 <= k < |t|
      ensures Compare(s[0].cls, t[k].cls) <= 0
    {
      assert t[k] in multiset(t);
      if t[k] != e {
        assert t[k] in multiset(s[1..]);
        var m :| 0 <= m < |s[1..]| && s[1..][m] == t[k];
        assert s[m + 1] == t[k];
      }
    }
    SortedCons(s[0], t);
  }

  /** Sorting a ledger: a sorted permutation of the input that leaves an already
      sorted input untouched. */
  function Sort(s: seq<Entry>): (r: Ledger)
    ensures multiset(r) == multiset(s)
    ensures |r| == |s|
    ensures Sorted(s) ==> r == s
  {
    if |s| == 0 then []
    else
      assert s == [s[0]] + s[1..];
      Insert(s[0], Sort(s[1..]))
  }

  /** `classes.filter(c => c.yogaClass.id !== id)`: drops every use of class `c` and
      keeps the rest in order. */
  function RemoveClass(s: Ledger, c: ClassId): (r: Ledger)
    ensures multiset(r) <= multiset(s)
    ensures forall e: Entry :: e.cls != c ==> multiset(r)[e] == multiset(s)[e]
    ensures forall k :: 0 <= k < |r| ==> r[k].cls != c
  {
    FilterCounts(s, c);
    FilterSorted(s, c);
    Filter(s, c)
  }

  function Filter(s: seq<Entry>, c: ClassId): seq<Entry> {
    if |s| == 0 then []
    else if s[0].cls == c then Filter(s[1..], c)
    else [s[0]] + Filter(s[1..], c)
  }

  lemma {:induction false} FilterCounts(s: seq<Entry>, c: ClassId)
    ensures multiset(Filter(s, c)) <= multiset(s)
    ensures forall e: Entry :: e.cls != c ==> multiset(Filter(s, c))[e] == multiset(s)[e]
    ensures forall k :: 0 <= k < |Filter(s, c)| ==> Filter(s, c)[k].cls != c
  {
    forall e: Entry
      ensures multiset(Filter(s, c))[e] == if e.cls == c then 0 else multiset(s)[e]
    {
      FilterCount(s, c, e);
    }
    FilterDropsClass(s, c);
  }

  lemma {:induction false} FilterCount(s: seq<Entry>, c: ClassId, e: Entry)
    ensures multiset(Filter(s, c))[e] == if e.cls == c then 0 else multiset(s)[e]
  {
    if |s| > 0 {
      FilterCount(s[1..], c, e);
      assert s == [s[0]] + s[1..];
      assert multiset(s) == multiset{s[0]} + multiset(s[1..]);
      if s[0].cls != c {
        assert multiset(Filter(s, c)) == multiset{s[0]} + multiset(Filter(s[1..], c));
      }
    }
  }

  lemma {:induction false} FilterDropsClass(s: seq<Entry>, c: ClassId)
    ensures forall k :: 0 <= k < |Filter(s, c)| ==> Filter(s, c)[k].cls != c
  {
    if |s| > 0 {
      FilterDropsClass(s[1..], c);
      var f, f' := Filter(s, c), Filter(s[1..], c);
      if s[0].cls != c {
        forall k | 0 <= k < |f|
          ensures f[k].cls != c
        {
          if k > 0 { assert f[k] == f'[k - 1]; }
        }
      }
    }
  }

  lemma {:induction false} FilterSorted(s: seq<Entry>, c: ClassId)
    requires Sorted(s)
    ensures Sorted(Filter(s, c))
  {
    if |s| > 0 {
      var rest := s[1..];
      FilterSorted(rest, c);
      if s[0].cls != c {
        FilterCounts(rest, c);
        forall k | 0 <= k < |rest|
          ensures Compare(s[0].cls, rest[k].cls) <= 0
        {
          assert rest[k] == s[k + 1];
        }
        PrependSorted(s[0], Filter(rest, c), rest);
      }
    }
  }

  /** An entry that is not later than any entry of `s` may go in front of any sorted
      selection `t` of the entries of `s`. */
  lemma PrependSorted(x: Entry, t: Ledger, s: seq<Entry>)
    requires multiset(t) <= multiset(s)
    requires forall k :: 0 <= k < |s| ==> Compare(x.cls, s[k].cls) <= 0
    ensures Sorted([x] + t)
  {
    forall k | 0 <= k < |t|
      ensures Compare(x.cls, t[k].cls) <= 0
    {
      assert t[k] in multiset(t);
      assert t[k] in multiset(s);
      var m :| 0 <= m < |s| && s[m] == t[k];
    }
  }

  /** The first use of class `c` in a ledger (`classes.find`). */
  function FindEntry(s: seq<Entry>, c: ClassId): (r: Option<nat>)
    ensures r.Some? ==>
      && r.value < |s| && s[r.value].cls == c
      && forall k :: 0 <= k < r.value ==> s[k].cls != c
    ensures r.None? <==> forall k :: 0 <= k < |s| ==> s[k].cls != c
  {
    if |s| == 0 then None
    else if s[0].cls == c then Some(0)
    else
      match FindEntry(s[1..], c)
      case None => None
      case Some(k) => Some(k + 1)
  }

  /** Rewriting the tick of one entry keeps its class, so the ledger stays sorted. */
  function SetTicked(s: Ledger, k: nat, ticked: bool): (r: Ledger)
    requires k < |s|
    ensures |r| == |s| && r[k] == Entry(s[k].cls, ticked)
    ensures forall m :: 0 <= m < |s| && m != k ==> r[m] == s[m]
  {
    s[k := Entry(s[k].cls, ticked)]
  }

  // ---------------------------------------------------------------------------
  // Construction and cloning

  /** The `Order` constructor: stores its arguments and sorts the entries. */
  function MakeOrder(id: string, productId: int, productLineId: int, numTotal: int,
                     classes: seq<Entry>, status: Status): (o: Order)
    ensures o.id == id && o.productId == productId && o.productLineId == productLineId
    ensures o.numTotal == numTotal && o.status == status
    ensures multiset(o.classes) == multiset(classes)
    ensures Sorted(classes) ==> o.classes == classes
  {
    Order(id, productId, productLineId, numTotal, Sort(classes), status)
  }

  /** `clone` rebuilds the order through the constructor; because the ledger is
      already sorted, the copy equals the original. */
  function Clone(o: Order): (r: Order)
    ensures r == o
  {
    MakeOrder(o.id, o.productId, o.productLineId, o.numTotal, o.classes, o.status)
  }

  // ---------------------------------------------------------------------------
  // Derived status

  /** `calculateStatusClassPass` reads the last entry of a full ten-class pass; the
      TypeScript code dereferences a missing entry when such a pass is empty (`numTotal <= 0`). */
  predicate StatusDefined(o: Order) {
    IsTenClassPassOrder(o) && |o.classes| >= o.numTotal ==> |o.classes| > 0
  }

  /** `calculateStatusClassPass`: only ten-class passes have a status; a pass with spare
      capacity is in use; a full pass is settled exactly when its last use was ticked. */
  function CalculateStatus(o: Order): (r: Status)
    requires StatusDefined(o)
    ensures r != NotApplicable <==> IsTenClassPassOrder(o)
    ensures r == InUse <==> IsTenClassPassOrder(o) && |o.classes| < o.numTotal
    ensures r == AllTicked || r == MissingTicks ==> |o.classes| > 0 && |o.classes| >= o.numTotal
    ensures r == AllTicked ==> Last(o).ticked
    ensures r == MissingTicks ==> !Last(o).ticked
  {
    if IsTenClassPassOrder(o) then
      if |o.classes| < o.numTotal then InUse
      else if Last(o).ticked then AllTicked
      else MissingTicks
    else NotApplicable
  }

  /** Only the last entry of a pass is read: two ledgers of the same length whose last
      entries carry the same tick give the same status, whatever the earlier ticks. */
  lemma StatusReadsOnlyLastEntry(o: Order, p: Order)
    requires StatusDefined(o) && StatusDefined(p)
    requires o.productId == p.productId && o.productLineId == p.productLineId
    requires o.numTotal == p.numTotal && |o.classes| == |p.classes|
    requires |o.classes| > 0 ==> Last(o).ticked == Last(p).ticked
    ensures CalculateStatus(o) == CalculateStatus(p)
  {
  }

  // ---------------------------------------------------------------------------
  // Missing ticks

  /** Length of the longest run of unticked entries at the end of `s`. */
  function TrailingUnticked(s: seq<Entry>): (r: nat)
    ensures r <= |s|
    ensures forall k :: |s| - r <= k < |s| ==> !s[k].ticked
    ensures r < |s| ==> s[|s| - 1 - r].ticked
  {
    if |s| == 0 || s[|s| - 1].ticked then 0
    else 1 + TrailingUnticked(s[..|s| - 1])
  }

  /** `getNumberMissingTicks` as a value: the trailing unticked run of a pass that is in
      use or missing ticks, and nothing for any other status. */
  function MissingTicksOf(o: Order): nat {
    if o.status == InUse || o.status == MissingTicks then TrailingUnticked(o.classes) else 0
  }

  /** `getNumberMissingTicks`: walks back from the last entry, counting unticked entries
      until the first ticked one. */
  method NumberMissingTicks(o: Order) returns (missing: nat)
    ensures missing == MissingTicksOf(o)
    ensures missing <= |o.classes|
    ensures o.status != InUse && o.status != MissingTicks ==> missing == 0
    ensures |o.classes| > 0 && Last(o).ticked ==> missing == 0
  {
    missing := 0;
    if o.status == InUse || o.status == MissingTicks {
      var s := o.classes;
      var i := |s| - 1;
      while i >= 0
        invariant -1 <= i < |s|
        invariant missing == |s| - 1 - i
        invariant forall k :: i < k < |s| ==> !s[k].ticked
      {
        if s[i].ticked {
          break;
        }
        missing := missing + 1;
        i := i - 1;
      }
      TrailingUntickedUnique(s, missing);
    }
  }

  /** A run of `m` unticked entries at the end that cannot be extended is the longest one. */
  lemma TrailingUntickedUnique(s: seq<Entry>, m: nat)
    requires m <= |s|
    requires forall k :: |s| - m <= k < |s| ==> !s[k].ticked
    requires m < |s| ==> s[|s| - 1 - m].ticked
    ensures TrailingUnticked(s) == m
  {
  }

  // ---------------------------------------------------------------------------
  // Age of an order

  /** `isOlder`: this order's last class is strictly earlier than `other`'s last class;
      an order never used is not older than anything. The TypeScript code reads `other`'s last
      entry unconditionally, so `other` must have been used. */
  function IsOlder(o: Order, other: Order): (r: bool)
    requires |other.classes| > 0
    ensures r ==> |o.classes| > 0
    ensures |o.classes| > 0 && WellFormed(Last(o).cls) && WellFormed(Last(other).cls) ==>
      (r <==> LexLess(Last(o).cls, Last(other).cls))
  {
    if |o.classes| == 0 then false
    else Compare(Last(o).cls, Last(other).cls) < 0
  }

  /** `isOlder` is a strict order on used orders: irreflexive, asymmetric, transitive. */
  lemma IsOlderIsStrictOrder(a: Order, b: Order, c: Order)
    requires |a.classes| > 0 && |b.classes| > 0 && |c.classes| > 0
    ensures !IsOlder(a, a)
    ensures IsOlder(a, b) ==> !IsOlder(b, a)
    ensures IsOlder(a, b) && IsOlder(b, c) ==> IsOlder(a, c)
  {
  }

  // ---------------------------------------------------------------------------
  // System invariants

  /** What every stored order satisfies: a settled or unsettled status implies at least
      one use, and a ten-class pass has room for at least one class. */
  predicate Consistent(o: Order) {
    && (o.status == AllTicked || o.status == MissingTicks ==> |o.classes| > 0)
    && (IsTenClassPassOrder(o) ==> o.numTotal >= 1)
  }

  /** Invariant I3: an order never pays for more classes than it allows. */
  predicate NotOverbooked(o: Order) {
    |o.classes| <= o.numTotal
  }

  lemma ConsistentHasStatus(o: Order)
    requires Consistent(o)
    ensures StatusDefined(o)
  {
  }
}

=== FILE: Text.dfy ===
/** Decimal text: the fragment of JavaScript's `parseInt` and template-literal number
    printing that the model needs. */
module Text {

  predicate IsDigit(ch: char) {
    '0' <= ch <= '9'
  }

  predicate AllDigits(s: string) {
    forall i :: 0 <= i < |s| ==> IsDigit(s[i])
  }

  function DigitValue(ch: char): nat
    requires IsDigit(ch)
  {
    ch as int - '0' as int
  }

  function DigitChar(d: nat): (ch: char)
    requires d < 10
    ensures IsDigit(ch) && DigitValue(ch) == d
  {
    ('0' as int + d) as char
  }

  /** `parseInt(s)` for a string made of decimal digits only (leading zeros allowed). The
      empty string reads as 0 here, where `parseInt` gives NaN; every caller passes a
      non-empty string. */
  function DigitsValue(s: string): nat
    requires AllDigits(s)
  {
    if |s| == 0 then 0 else DigitsValue(s[..|s| - 1]) * 10 + DigitValue(s[|s| - 1])
  }

  /** Two digit strings of one length that `parseInt` reads as the same number are equal. */
  lemma {:induction false} DigitsValueInjective(s: string, t: string)
    requires AllDigits(s) && AllDigits(t) && |s| == |t|
    requires DigitsValue(s) == DigitsValue(t)
    ensures s == t
  {
    if |s| > 0 {
      var n := |s| - 1;
      var a, b := DigitsValue(s[..n]), DigitsValue(t[..n]);
      var x, y := DigitValue(s[n]), DigitValue(t[n]);
      assert a * 10 + x == b * 10 + y;
      assert (a - b) * 10 == y - x;
      MulBounds(a - b, 10);
      DigitsValueInjective(s[..n], t[..n]);
      assert s == s[..n] + [s[n]] && t == t[..n] + [t[n]];
    }
  }

  /** `${n}` for a non-negative integer: shortest decimal spelling, which `parseInt` reads back. */
  function NatToString(n: nat): (r: string)
    ensures |r| >= 1 && AllDigits(r)
    ensures DigitsValue(r) == n
    // no zero padding: only zero itself starts with '0', and it prints as "0"
    ensures r[0] == '0' ==> r == "0"
  {
    if n < 10 then [DigitChar(n)]
    else
      var r := NatToString(n / 10) + [DigitChar(n % 10)];
      assert r[..|r| - 1] == NatToString(n / 10);
      r
  }

  /** Printing non-negative integers is injective. */
  lemma NatToStringInjective(a: nat, b: nat)
    ensures NatToString(a) == NatToString(b) ==> a == b
  {
  }

  /** `${i}` for any integer. */
  function IntToString(i: int): (r: string)
    ensures |r| >= 1
    ensures i >= 0 <==> AllDigits(r)
    ensures i < 0 ==> r[0] == '-' && AllDigits(r[1..]) && DigitsValue(r[1..]) == -i
    ensures i >= 0 ==> DigitsValue(r) == i
    ensures i >= 0 && r[0] == '0' ==> r == "0"
    ensures i < 0 ==> |r| >= 2 && r[1] != '0'
  {
    if i < 0 then
      var r := "-" + NatToString(-i);
      assert r[1..] == NatToString(-i);
      assert !IsDigit(r[0]);
      r
    else NatToString(i)
  }

  /** JavaScript's `a % b` for a positive divisor: the remainder truncates toward zero,
      so it carries the sign of `a` (Dafny's `%` never goes negative). */
  function JsRem(a: int, b: int): (r: int)
    requires b > 0
    ensures -b < r < b
    ensures a >= 0 ==> r >= 0
    ensures a <= 0 ==> r <= 0
    ensures (a - r) % b == 0
  {
    if a >= 0 then
      MultipleRem(a / b, b);
      assert a - a % b == (a / b) * b;
      a % b
    else
      MultipleRem(-((-a) / b), b);
      assert a + (-a) % b == -((-a) / b) * b;
      -((-a) % b)
  }

  lemma MultipleRem(q: int, b: int)
    requires b > 0
    ensures (q * b) % b == 0
  {
    var m := q * b;
    var d, r := m / b, m % b;
    assert (q - d) * b == r by {
      assert m == d * b + r;
    }
    MulBounds(q - d, b);
  }

  lemma MulBounds(k: int, b: int)
    requires b > 0
    ensures k >= 1 ==> k * b >= b
    ensures k <= -1 ==> k * b <= -b
  {
    if k >= 1 {
      assert (k - 1) * b >= 0;
    } else if k <= -1 {
      assert (-k - 1) * b >= 0;
    }
  }
}

=== FILE: Users.dfy ===
/** A user and the reconciliation of their orders with their attendance
    (firestore/users.ts): ticket selection, attending and un-attending a class,
    toggling the "pass missing" flag, and the total of missing ticks. */
module Users {
  import opened Wrappers
  import opened Global
  import opened Chronology
  import opened Orders

  datatype User = User(id: string, firstName: string, surname: string, isMember: bool, orders: seq<Order>)

  /** The errors the reconciliation raises (persistence failures are not modelled). */
  datatype Error =
    | NoCurrentTicket     // no order can pay for the class
    | NoEntryForClass     // the selected order has no use recorded for the class

  // ---------------------------------------------------------------------------
  // Ticket selection (`getCurrentTicket`)

  /** The order's product is one of the class's accepted ticket types. */
  predicate Accepts(valid: seq<TicketType>, o: Order) {
    TicketType(o.productId, o.productLineId) in valid
  }

  /** An accepted order that is exactly full and already paid for class `c`. */
  predicate AlreadyUsed(o: Order, c: ClassId, valid: seq<TicketType>) {
    Accepts(valid, o) && o.numTotal == |o.classes| && HasClass(o, c)
  }

  /** An accepted order with room for another class. */
  predicate Candidate(o: Order, valid: seq<TicketType>) {
    Accepts(valid, o) && |o.classes| < o.numTotal
  }

  /** Candidate `i` comes no later than candidate `j` once `getCurrentTicket` has stably sorted the
      candidates ten-class passes first and then stably by decreasing number of uses:
      more uses first, then ten-class passes, then list order. */
  predicate NoWorse(orders: seq<Order>, i: nat, j: nat)
    requires i < |orders| && j < |orders|
  {
    var ni, nj := |orders[i].classes|, |orders[j].classes|;
    var ti, tj := IsTenClassPassOrder(orders[i]), IsTenClassPassOrder(orders[j]);
    || nj < ni
    || (nj == ni && ti && !tj)
    || (nj == ni && ti == tj && i <= j)
  }

  /** The first already-used order at or after position `from` (`orders.find`). */
  function FindAlreadyUsed(orders: seq<Order>, c: ClassId, valid: seq<TicketType>, from: nat): (r: Option<nat>)
    requires from <= |orders|
    ensures r.Some? ==>
      && from <= r.value < |orders| && AlreadyUsed(orders[r.value], c, valid)
      && forall j :: from <= j < r.value ==> !AlreadyUsed(orders[j], c, valid)
    ensures r.None? ==> forall j :: from <= j < |orders| ==> !AlreadyUsed(orders[j], c, valid)
    decreases |orders| - from
  {
    if from == |orders| then None
    else if AlreadyUsed(orders[from], c, valid) then Some(from)
    else FindAlreadyUsed(orders, c, valid, from + 1)
  }

  /** The first candidate of the two stable sorts among the first `n` orders. */
  function BestCandidate(orders: seq<Order>, valid: seq<TicketType>, n: nat): (r: Option<nat>)
    requires n <= |orders|
    ensures r.None? <==> forall j :: 0 <= j < n ==> !Candidate(orders[j], valid)
    ensures r.Some? ==>
      && r.value < n && Candidate(orders[r.value], valid)
      && forall j :: 0 <= j < n && Candidate(orders[j], valid) ==> NoWorse(orders, r.value, j)
  {
    if n == 0 then None
    else
      var k := n - 1;
      var best := BestCandidate(orders, valid, k);
      if !Candidate(orders[k], valid) then best
      else if best.None? then Some(k)
      else
        var b := best.value;
        if |orders[b].classes| < |orders[k].classes|
          || (|orders[b].classes| == |orders[k].classes|
              && IsTenClassPassOrder(orders[k]) && !IsTenClassPassOrder(orders[b]))
        then Some(k)
        else best
  }

  /** `getCurrentTicket`: the position of the order that pays for class `c`, or `None`
      when the user has no usable ticket. An exactly full accepted order that already
      lists `c` is chosen again; otherwise an accepted order with room is chosen, the
      one with most uses first, a ten-class pass on a tie, the earlier one after that. */
  function Select(orders: seq<Order>, c: ClassId, valid: seq<TicketType>): (r: Option<nat>)
    ensures r.Some? ==> r.value < |orders|
    ensures (exists j :: 0 <= j < |orders| && AlreadyUsed(orders[j], c, valid)) ==>
      && r.Some? && AlreadyUsed(orders[r.value], c, valid)
      && forall j :: 0 <= j < r.value ==> !AlreadyUsed(orders[j], c, valid)
    ensures (forall j :: 0 <= j < |orders| ==> !AlreadyUsed(orders[j], c, valid)) ==>
      && (r.None? <==> forall j :: 0 <= j < |orders| ==> !Candidate(orders[j], valid))
      && (r.Some? ==>
            && Candidate(orders[r.value], valid)
            && forall j :: 0 <= j < |orders| && Candidate(orders[j], valid) ==> NoWorse(orders, r.value, j))
  {
    match FindAlreadyUsed(orders, c, valid, 0)
    case Some(i) => Some(i)
    case None => BestCandidate(orders, valid, |orders|)
  }

  /** The preference is a strict total order on positions: at most one candidate is
      no worse than all the others, so the selection is determined. */
  lemma PreferenceIsUnique(orders: seq<Order>, valid: seq<TicketType>, i: nat, j: nat)
    requires i < |orders| && j < |orders|
    requires NoWorse(orders, i, j) && NoWorse(orders, j, i)
    ensures i == j
  {
  }

  /** Selection never overbooks: when no order already lists the class, the chosen
      order has room for it. */
  lemma SelectHasRoom(orders: seq<Order>, c: ClassId, valid: seq<TicketType>)
    requires forall j :: 0 <= j < |orders| ==> !HasClass(orders[j], c)
    ensures Select(orders, c, valid).Some? ==>
      |orders[Select(orders, c, valid).value].classes| < orders[Select(orders, c, valid).value].numTotal
  {
  }

  // ---------------------------------------------------------------------------
  // Aggregate view

  /** Sum of the missing ticks of the orders, accumulated front to back. */
  function SumMissingTicks(orders: seq<Order>): nat {
    if |orders| == 0 then 0
    else SumMissingTicks(orders[..|orders| - 1]) + MissingTicksOf(orders[|orders| - 1])
  }

  /** Total number of uses over all orders. */
  function TotalUses(orders: seq<Order>): nat {
    if |orders| == 0 then 0
    else TotalUses(orders[..|orders| - 1]) + |orders[|orders| - 1].classes|
  }

  /** `getTotalNbMissingTicksOnPasses`: adds up the missing ticks of every order. */
  method TotalMissingTicks(u: User) returns (res: nat)
    ensures res == SumMissingTicks(u.orders)
    ensures |u.orders| == 0 ==> res == 0
    ensures res <= TotalUses(u.orders)
  {
    res := 0;
    var i := 0;
    while i < |u.orders|
      invariant 0 <= i <= |u.orders|
      invariant res == SumMissingTicks(u.orders[..i])
      invariant res <= TotalUses(u.orders[..i])
    {
      var m := NumberMissingTicks(u.orders[i]);
      assert u.orders[..i + 1][..i] == u.orders[..i];
      res := res + m;
      i := i + 1;
    }
    assert u.orders[..i] == u.orders;
  }

  // ---------------------------------------------------------------------------
  // Attending a class (`updateTicket(yogaClass, true)`)

  /** The selected order after paying for class `c`: one more use, ticked, inserted in
      chronological order, and its status recomputed. */
  function AddUse(o: Order, c: ClassId): (r: Order)
    ensures r.id == o.id && r.productId == o.productId && r.productLineId == o.productLineId
    ensures r.numTotal == o.numTotal
    ensures |r.classes| == |o.classes| + 1
    ensures multiset(r.classes) == multiset(o.classes) + multiset{Entry(c, true)}
    ensures HasClass(r, c)
    ensures r.status == CalculateStatus(r)
  {
    var ledger := Sort(o.classes + [Entry(c, true)]);
    SortedWithEntry(o.classes, Entry(c, true), ledger);
    var grown := o.(classes := ledger);
    grown.(status := CalculateStatus(grown))
  }

  /** A sorted ledger holding the entries of `s` and one more entry `e` has `e`'s class. */
  lemma SortedWithEntry(s: seq<Entry>, e: Entry, r: seq<Entry>)
    requires multiset(r) == multiset(s + [e])
    ensures |r| == |s| + 1
    ensures multiset(r) == multiset(s) + multiset{e}
    ensures exists k :: 0 <= k < |r| && r[k].cls == e.cls
  {
    assert |multiset(r)| == |r|;
    assert e in multiset(r);
    var k :| 0 <= k < |r| && r[k] == e;
  }

  /** Attending a class no earlier than every class already paid for puts its ticked
      entry last, so a pass this fills up is settled. */
  lemma {:induction false} AddUseLatest(o: Order, c: ClassId)
    requires forall k :: 0 <= k < |o.classes| ==> Compare(o.classes[k].cls, c) <= 0
    ensures AddUse(o, c).classes == o.classes + [Entry(c, true)]
    ensures IsTenClassPassOrder(o) && |o.classes| + 1 >= o.numTotal ==> AddUse(o, c).status == AllTicked
  {
    var s := o.classes + [Entry(c, true)];
    assert Sorted(s) by {
      forall i, j | 0 <= i < j < |s|
        ensures Compare(s[i].cls, s[j].cls) <= 0
      {
        if j < |o.classes| {
          assert s[i] == o.classes[i] && s[j] == o.classes[j];
        } else {
          assert s[i] == o.classes[i];
        }
      }
    }
  }

  /** Retroactive settling: another order that is missing ticks and is older than the
      order just charged becomes all ticked. */
  function Promote(o: Order, charged: Order): (r: Order)
    requires |charged.classes| > 0
    ensures r.(status := o.status) == o
    ensures r.status != o.status ==>
      o.status == MissingTicks && r.status == AllTicked && o.id != charged.id && IsOlder(o, charged)
    ensures o.id != charged.id && o.status == MissingTicks && IsOlder(o, charged) ==> r.status == AllTicked
  {
    if o.id != charged.id && o.status == MissingTicks && IsOlder(o, charged)
    then o.(status := AllTicked)
    else o
  }

  /** `clone` of a user: a deep copy through the order constructor, equal to the user. */
  function CloneUser(u: User): (r: User)
    ensures r == u
  {
    User(u.id, u.firstName, u.surname, u.isMember, seq(|u.orders|, j requires 0 <= j < |u.orders| => Clone(u.orders[j])))
  }

  /** The parts of an order that reconciliation never changes. */
  predicate SameOrderShape(o: Order, p: Order) {
    && p.id == o.id
    && p.productId == o.productId
    && p.productLineId == o.productLineId
    && p.numTotal == o.numTotal
  }

  /** The parts of a user that reconciliation never changes. */
  predicate SameShape(u: User, v: User) {
    && v.id == u.id && v.firstName == u.firstName && v.surname == u.surname && v.isMember == u.isMember
    && |v.orders| == |u.orders|
    && forall j :: 0 <= j < |u.orders| ==> SameOrderShape(u.orders[j], v.orders[j])
  }

  /** The orders after charging order `i` for class `c` and settling older ones. */
  function AttendedOrders(orders: seq<Order>, i: nat, c: ClassId): (r: seq<Order>)
    requires i < |orders|
    ensures |r| == |orders| && r[i] == AddUse(orders[i], c)
    ensures forall j :: 0 <= j < |orders| ==> SameOrderShape(orders[j], r[j])
    ensures forall j :: 0 <= j < |orders| && j != i ==> r[j] == Promote(orders[j], r[i])
  {
    var charged := AddUse(orders[i], c);
    seq(|orders|, j requires 0 <= j < |orders| => if j == i then charged else Promote(orders[j], charged))
  }

  /** What attending does to a user, once order `i` has been selected for class `c`. */
  predicate AttendEffect(u: User, v: User, i: nat, c: ClassId)
    requires i < |u.orders|
  {
    && SameShape(u, v)
    // the selected order gains exactly one ticked use of `c` and is re-derived
    && |v.orders[i].classes| == |u.orders[i].classes| + 1
    && multiset(v.orders[i].classes) == multiset(u.orders[i].classes) + multiset{Entry(c, true)}
    && v.orders[i].status == CalculateStatus(v.orders[i])
    // no other ledger changes
    && (forall j :: 0 <= j < |u.orders| && j != i ==> v.orders[j].classes == u.orders[j].classes)
    // the only other status changes settle older orders that were missing ticks
    && (forall j :: 0 <= j < |u.orders| && j != i && v.orders[j].status != u.orders[j].status ==>
          && u.orders[j].status == MissingTicks && v.orders[j].status == AllTicked
          && u.orders[j].id != u.orders[i].id && IsOlder(u.orders[j], v.orders[i]))
    && (forall j :: 0 <= j < |u.orders| && j != i && u.orders[j].id != u.orders[i].id ==>
          (u.orders[j].status == MissingTicks && IsOlder(u.orders[j], v.orders[i]) ==>
            v.orders[j].status == AllTicked))
  }

  lemma AttendedOrdersEffect(u: User, i: nat, c: ClassId)
    requires i < |u.orders|
    ensures AttendEffect(u, u.(orders := AttendedOrders(u.orders, i, c)), i, c)
  {
    var v := u.(orders := AttendedOrders(u.orders, i, c));
    assert SameShape(u, v);
    assert forall j :: 0 <= j < |u.orders| && j != i ==> v.orders[j].classes == u.orders[j].classes by {
      forall j | 0 <= j < |u.orders| && j != i
        ensures v.orders[j].classes == u.orders[j].classes
      {
        assert v.orders[j] == Promote(u.orders[j], v.orders[i]);
      }
    }
  }

  /** `updateTicket(yogaClass, true)`: charge the selected order, then settle older ones.
      Fails exactly when no ticket can be selected. */
  function Attend(u: User, c: ClassId, valid: seq<TicketType>): (r: Result<User, Error>)
    ensures r.Failure? <==> Select(u.orders, c, valid).None?
    ensures r.Failure? ==> r.error == NoCurrentTicket
    ensures r.Success? ==> AttendEffect(u, r.value, Select(u.orders, c, valid).value, c)
  {
    match Select(u.orders, c, valid)
    case None => Failure(NoCurrentTicket)
    case Some(i) =>
      AttendedOrdersEffect(u, i, c);
      Success(CloneUser(u.(orders := AttendedOrders(u.orders, i, c))))
  }

  // ---------------------------------------------------------------------------
  // Un-attending a class (`updateTicket(yogaClass, false)`)

  /** An order that paid for `c`: every use of `c` is dropped and the status recomputed. */
  function RemoveUse(o: Order, c: ClassId): (r: Order)
    requires IsTenClassPassOrder(o) ==> o.numTotal >= 1
    ensures r.id == o.id && r.productId == o.productId && r.productLineId == o.productLineId
    ensures r.numTotal == o.numTotal
    ensures !HasClass(r, c)
    ensures multiset(r.classes) <= multiset(o.classes)
    ensures forall e: Entry :: e.cls != c ==> multiset(r.classes)[e] == multiset(o.classes)[e]
    ensures r.status == CalculateStatus(r)
  {
    var shrunk := o.(classes := RemoveClass(o.classes, c));
    shrunk.(status := CalculateStatus(shrunk))
  }

  /** Another order settled only by an earlier rule: all ticked although its last use is
      unticked, it goes back to missing ticks. */
  function Demote(o: Order): (r: Order)
    requires o.status == AllTicked ==> |o.classes| > 0
    ensures r.(status := o.status) == o
    ensures r.status != o.status <==> o.status == AllTicked && !Last(o).ticked
    ensures r.status != o.status ==> r.status == MissingTicks
  {
    if o.status == AllTicked && !Last(o).ticked then o.(status := MissingTicks) else o
  }

  function UnattendOrder(o: Order, c: ClassId): (r: Order)
    requires Consistent(o)
    ensures r.id == o.id && r.productId == o.productId && r.productLineId == o.productLineId
    ensures r.numTotal == o.numTotal
    ensures !HasClass(r, c)
    ensures HasClass(o, c) ==> r == RemoveUse(o, c)
    ensures !HasClass(o, c) ==> r == Demote(o)
  {
    if HasClass(o, c) then RemoveUse(o, c) else Demote(o)
  }

  function UnattendedOrders(orders: seq<Order>, c: ClassId): (r: seq<Order>)
    requires forall j :: 0 <= j < |orders| ==> Consistent(orders[j])
    ensures |r| == |orders|
    ensures forall j :: 0 <= j < |orders| ==> r[j] == UnattendOrder(orders[j], c)
    ensures forall j :: 0 <= j < |orders| ==> SameOrderShape(orders[j], r[j])
  {
    seq(|orders|, j requires 0 <= j < |orders| => UnattendOrder(orders[j], c))
  }

  /** `updateTicket(yogaClass, false)`. Un-attending never fails. `updateTicket` reads the
      last entry of an AllTicked order it demotes, which an empty AllTicked order lacks.
      The precondition asks for more than that, namely that every order is `Consistent`:
      ingestion establishes it and every operation keeps it. */
  function Unattend(u: User, c: ClassId): (v: User)
    requires forall j :: 0 <= j < |u.orders| ==> Consistent(u.orders[j])
    ensures SameShape(u, v)
    ensures forall j :: 0 <= j < |v.orders| ==> !HasClass(v.orders[j], c)
    // orders that paid for `c` lose exactly their uses of `c` and are re-derived
    ensures forall j :: 0 <= j < |u.orders| && HasClass(u.orders[j], c) ==>
      && multiset(v.orders[j].classes) <= multiset(u.orders[j].classes)
      && (forall e: Entry :: e.cls != c ==> multiset(v.orders[j].classes)[e] == multiset(u.orders[j].classes)[e])
      && StatusDefined(v.orders[j]) && v.orders[j].status == CalculateStatus(v.orders[j])
    // every other order keeps its ledger; its status changes exactly when it is all
    // ticked with an unticked last use, and then it is missing ticks
    ensures forall j :: 0 <= j < |u.orders| && !HasClass(u.orders[j], c) ==>
      && v.orders[j].classes == u.orders[j].classes
      && (v.orders[j].status != u.orders[j].status <==>
            u.orders[j].status == AllTicked && |u.orders[j].classes| > 0 && !Last(u.orders[j]).ticked)
      && (v.orders[j].status != u.orders[j].status ==> v.orders[j].status == MissingTicks)
  {
    CloneUser(u.(orders := UnattendedOrders(u.orders, c)))
  }

  /** `updateTicket`: attend (may fail for want of a ticket) or un-attend (never fails). */
  function UpdateTicket(u: User, c: ClassId, valid: seq<TicketType>, attended: bool): (r: Result<User, Error>)
    requires !attended ==> forall j :: 0 <= j < |u.orders| ==> Consistent(u.orders[j])
    ensures r.Failure? <==> attended && Select(u.orders, c, valid).None?
    ensures r.Success? ==> SameShape(u, r.value)
    ensures attended && r.Success? ==> HasClass(r.value.orders[Select(u.orders, c, valid).value], c)
    ensures !attended ==> forall j :: 0 <= j < |r.value.orders| ==> !HasClass(r.value.orders[j], c)
    ensures attended ==> r == Attend(u, c, valid)
    ensures !attended ==> r == Success(Unattend(u, c))
  {
    if attended then Attend(u, c, valid) else Success(Unattend(u, c))
  }

  // ---------------------------------------------------------------------------
  // Toggling the "pass missing" flag (`updateMissingTickOnPass`)

  /** Propagation to another order older than the charged one: a presented pass settles
      it; a missing pass unsettles it when its last use is unticked or is this class. */
  function Propagate(o: Order, charged: Order, c: ClassId, missing: bool): (r: Order)
    requires |charged.classes| > 0
    ensures r.(status := o.status) == o
    ensures r.status != o.status ==>
      && o.id != charged.id && IsOlder(o, charged)
      && (!missing ==> o.status == MissingTicks && r.status == AllTicked)
      && (missing ==> o.status == AllTicked && r.status == MissingTicks && (!Last(o).ticked || Last(o).cls == c))
    ensures o.id != charged.id && IsOlder(o, charged) ==>
      && (!missing && o.status == MissingTicks ==> r.status == AllTicked)
      && (missing && o.status == AllTicked && (!Last(o).ticked || Last(o).cls == c) ==> r.status == MissingTicks)
  {
    if o.id != charged.id && IsOlder(o, charged) then
      if !missing then
        if o.status == MissingTicks then o.(status := AllTicked) else o
      else if o.status == AllTicked && (!Last(o).ticked || Last(o).cls == c) then
        o.(status := MissingTicks)
      else o
    else o
  }

  /** The selected order `i` with the tick of its `k`-th use set to `ticked`, status
      re-derived, and the other orders updated by `Propagate`. */
  function RetickedOrders(orders: seq<Order>, i: nat, k: nat, c: ClassId, missing: bool): (r: seq<Order>)
    requires i < |orders| && k < |orders[i].classes| && orders[i].classes[k].cls == c
    ensures |r| == |orders|
    ensures r[i] == Retick(orders[i], k, !missing)
    ensures forall j :: 0 <= j < |orders| ==> SameOrderShape(orders[j], r[j])
    ensures forall j :: 0 <= j < |orders| && j != i ==> r[j] == Propagate(orders[j], r[i], c, missing)
  {
    var charged := Retick(orders[i], k, !missing);
    seq(|orders|, j requires 0 <= j < |orders| => if j == i then charged else Propagate(orders[j], charged, c, missing))
  }

  /** One use of an order gets a new tick; the status is re-derived. */
  function Retick(o: Order, k: nat, ticked: bool): (r: Order)
    requires k < |o.classes|
    ensures r.id == o.id && r.productId == o.productId && r.productLineId == o.productLineId
    ensures r.numTotal == o.numTotal
    ensures |r.classes| == |o.classes| && r.classes[k] == Entry(o.classes[k].cls, ticked)
    ensures forall m :: 0 <= m < |o.classes| && m != k ==> r.classes[m] == o.classes[m]
    ensures r.status == CalculateStatus(r)
  {
    var retouched := o.(classes := SetTicked(o.classes, k, ticked));
    retouched.(status := CalculateStatus(retouched))
  }

  /** What toggling the flag does once order `i` is selected and `k` is its first use of `c`. */
  predicate RetickEffect(u: User, v: User, i: nat, k: nat, c: ClassId, missing: bool)
    requires i < |u.orders| && k < |u.orders[i].classes|
  {
    && SameShape(u, v)
    // the first use of `c` in the selected order gets `ticked == !missing`; nothing else
    // in that ledger moves, and the status is re-derived
    && |v.orders[i].classes| == |u.orders[i].classes|
    && v.orders[i].classes[k] == Entry(c, !missing)
    && (forall m :: 0 <= m < |u.orders[i].classes| && m != k ==> v.orders[i].classes[m] == u.orders[i].classes[m])
    && v.orders[i].status == CalculateStatus(v.orders[i])
    // other ledgers are untouched
    && (forall j :: 0 <= j < |u.orders| && j != i ==> v.orders[j].classes == u.orders[j].classes)
    // status changes of other orders: only older ones, in the direction of the flag
    && (forall j :: 0 <= j < |u.orders| && j != i && v.orders[j].status != u.orders[j].status ==>
          && u.orders[j].id != u.orders[i].id && IsOlder(u.orders[j], v.orders[i])
          && (!missing ==> u.orders[j].status == MissingTicks && v.orders[j].status == AllTicked)
          && (missing ==>
                && u.orders[j].status == AllTicked && v.orders[j].status == MissingTicks
                && (!Last(u.orders[j]).ticked || Last(u.orders[j]).cls == c)))
    && (forall j :: 0 <= j < |u.orders| && j != i && u.orders[j].id != u.orders[i].id ==>
          (IsOlder(u.orders[j], v.orders[i]) ==>
            && (!missing && u.orders[j].status == MissingTicks ==> v.orders[j].status == AllTicked)
            && (missing && u.orders[j].status == AllTicked && (!Last(u.orders[j]).ticked || Last(u.orders[j]).cls == c) ==>
                  v.orders[j].status == MissingTicks)))
  }

  lemma RetickedOrdersEffect(u: User, i: nat, k: nat, c: ClassId, missing: bool)
    requires i < |u.orders| && k < |u.orders[i].classes| && u.orders[i].classes[k].cls == c
    ensures RetickEffect(u, u.(orders := RetickedOrders(u.orders, i, k, c, missing)), i, k, c, missing)
  {
    var v := u.(orders := RetickedOrders(u.orders, i, k, c, missing));
    assert SameShape(u, v);
    assert forall j :: 0 <= j < |u.orders| && j != i ==> v.orders[j].classes == u.orders[j].classes by {
      forall j | 0 <= j < |u.orders| && j != i
        ensures v.orders[j].classes == u.orders[j].classes
      {
        assert v.orders[j] == Propagate(u.orders[j], v.orders[i], c, missing);
      }
    }
  }

  /** `updateMissingTickOnPass`: `missing` is the participant's "pass missing" flag, the
      stored tick is its negation. Fails without a ticket, and when the selected order
      never paid for the class. */
  function MissingTick(u: User, c: ClassId, valid: seq<TicketType>, missing: bool): (r: Result<User, Error>)
    ensures Select(u.orders, c, valid).None? ==> r == Failure(NoCurrentTicket)
    ensures Select(u.orders, c, valid).Some? ==>
      (r == Failure(NoEntryForClass) <==> !HasClass(u.orders[Select(u.orders, c, valid).value], c))
    ensures r.Success? <==>
      Select(u.orders, c, valid).Some? && HasClass(u.orders[Select(u.orders, c, valid).value], c)
    ensures r.Success? ==>
      var i := Select(u.orders, c, valid).value;
      && FindEntry(u.orders[i].classes, c).Some?
      && RetickEffect(u, r.value, i, FindEntry(u.orders[i].classes, c).value, c, missing)
  {
    match Select(u.orders, c, valid)
    case None => Failure(NoCurrentTicket)
    case Some(i) =>
      match FindEntry(u.orders[i].classes, c)
      case None => Failure(NoEntryForClass)
      case Some(k) =>
        RetickedOrdersEffect(u, i, k, c, missing);
        Success(CloneUser(u.(orders := RetickedOrders(u.orders, i, k, c, missing))))
  }
}

=== FILE: Wrappers.dfy ===
/** Failure-carrying datatypes shared by the whole model: `Option` stands for the
    TypeScript code's `null`/`undefined` results, `Result` for an operation that either
    returns a value or throws one of the errors listed in `Error`. */
module Wrappers {

  datatype Option<+T> = None | Some(value: T)

  datatype Result<+T, +E> = Success(value: T) | Failure(error: E)
}
